=== FILE: README.md ===
# CIFAR ResNet backbone and accuracy bookkeeping, modelled in Dafny

This project models the feature extractor used by an incremental-learning
library. That extractor is the CIFAR ResNet of Rebuffi et al. Alongside it, the
project models two small utilities from the same library: per-task accuracy
reporting and one-hot encoding.

- **Building the network.** A `CifarResNet` is built from keyword arguments
  `n`, `channels`, `preact` and `zero_residual`, and refuses any other keyword.
  It has four parts:
  - a 3x3 stem to 16 channels;
  - three stages produced by `_make_layer`;
  - a final 64-channel block;
  - an 8x8 average pool.

  Every convolution gets the Kaiming fan-out initialiser. Every batch
  normalisation gets scale 1 and shift 0. Under `zero_residual`, the second
  normalisation of every post-activation block then has its scale reset to 0.
- **Blocks.** `ResidualBlock` (post-activation) and `PreActResidualBlock` are
  modelled by their wiring and by their forward pass. Their dimension-increasing
  shortcut is `DownsampleStride` (the `::2` slice) followed by zero-channel
  padding.
- **Forward pass.** `forward`, including the attention hook, and `end_features`
  are modelled on feature maps. A feature map is a shape (N, C, H, W) with a
  value function. The numerics of each convolution, normalisation and pooling
  layer are opaque parameters. Everything the code itself decides is modelled
  exactly: which layer feeds which, shapes, the shortcut, ReLU, the residual
  addition and when the pass fails.
- **`compute_accuracy`.** The total accuracy and one accuracy per window of
  `task_size` classes, starting at 0 and stopping before `max(ytrue)`. Each
  window is keyed by a zero-padded `"start-end"` label.
- **`to_onehot`.** One row per target, with a 1 in the target's column.

Some consequences of the code that are easy to miss:

- the `::2` slice keeps ceil(h/2) rows and ceil(w/2) columns, so odd extents round up;
- the pooled feature width is 64 only when both input extents lie between 29 and 60, and larger inputs give more columns;
- an accuracy window that no label falls in scores NaN, and it is still reported;
- construction cannot reject a spatial size, which only becomes known at the forward pass.

## Modules

| file | module | contents |
|---|---|---|
| wrappers.dfy | Wrappers | `Option`, `Result` and their `:-` support |
| ranges.dfy | Ranges | Python's `range(start, stop, step)` |
| decimal.dfy | Decimal | `str(int)`, `rjust`, and a parser that inverts them |
| accuracy.dfy | Accuracy | `compute_accuracy` |
| onehot.dfy | OneHot | `to_onehot` |
| shapes.dfy | Shapes | spatial extents of a 3x3 convolution, the `::2` slice and the 8x8 pool |
| feature_maps.dfy | FeatureMaps | ReLU, downsampling, zero padding, addition, affine normalisation |
| layers.dfy | Layers | convolution, batch normalisation and block records; the block constructors |
| blocks.dfy | Blocks | the two block forward passes |
| architecture.dfy | Architecture | `_make_layer`, the network layout and `modules()` enumeration |
| initialisation.dfy | Initialisation | the two initialisation loops of `CifarResNet.__init__` |
| resnet.dfy | ResNet | keyword handling, `CifarResNet`, `resnet_rebuffi`, `forward`, `end_features` |

## Model

| member | source | states |
|---|---|---|
| Ranges.PyRange | inclearn/lib/utils.py:22 | element k is start + k*step. Every element is strictly before stop. The next element would reach or pass stop, so no element is missing. |
| Ranges.EvenRangeLength | inclearn/convnet/my_resnet.py:21 | stepping by 2 from 0 to stop visits ceil(stop/2) positions, which is the extent the `::2` slice keeps |
| Decimal.IntToString | inclearn/lib/utils.py:28 | `str` of an integer is digits only when the integer is non-negative, and otherwise a minus sign followed by at least one digit |
| Decimal.NatToString | inclearn/lib/utils.py:28 | `str` of a natural number is a non-empty string of digits with no leading zero. Decimal.NatRoundTrip shows it reads back as the number. |
| Decimal.RJust | inclearn/lib/utils.py:28-29 | `rjust` keeps the string as its suffix, reaches the requested width and fills only the prefix with the fill character |
| Decimal.NatRoundTrip | inclearn/lib/utils.py:28 | reading back the decimal text of a natural number gives the number |
| Decimal.PaddedRoundTrip | inclearn/lib/utils.py:28-29 | zero-padding an integer's text to width 2 loses nothing: the padded text is a numeral of length at least 2 whose value is the integer, negative integers included |
| Accuracy.Hits | inclearn/lib/utils.py:20 | the count of agreeing positions never exceeds the length |
| Accuracy.HitsCountsMatches | inclearn/lib/utils.py:20 | the count `(ypred == ytrue).sum()` equals the number of positions where prediction and label agree |
| Accuracy.Max | inclearn/lib/utils.py:22 | `np.max` returns an element of the labels that no label exceeds |
| Accuracy.Members | inclearn/lib/utils.py:23-25 | the window's member positions are valid positions of the labels |
| Accuracy.Gather | inclearn/lib/utils.py:31 | the indexing `ypred[idxes]` and `ytrue[idxes]` yields one entry per index. Accuracy.WindowCounts states the hit count over the gathered entries. |
| Accuracy.WindowScore | inclearn/lib/utils.py:23-31 | no contract of its own: Accuracy.WindowScoreMeaning states what a window's score is |
| Accuracy.WindowLabel | inclearn/lib/utils.py:27-30 | no contract of its own: Accuracy.LabelRoundTrip and Accuracy.ReportKeysDistinct state what the label encodes |
| Accuracy.WindowStarts | inclearn/lib/utils.py:22 | no contract of its own: Accuracy.WindowStartsExact and Accuracy.WindowStartsDistinct state which starts it yields |
| Accuracy.WindowCounts | inclearn/lib/utils.py:23-31 | the member list has as many positions as there are labels in the window, and its hit count is the number of those positions whose prediction is right |
| Accuracy.ComputeAccuracy | inclearn/lib/utils.py:17-33 | fails exactly when the labels are empty (`np.max` raises) or `task_size` is 0 (`range` raises), and tells the two apart. On success, the total is a ratio over `len(ytrue)`, and every ratio score lies between 0 and 1. A window with no members scores NaN (see Accuracy.WindowScoreMeaning). |
| Accuracy.TotalIsMatchFraction | inclearn/lib/utils.py:20 | the total is the number of positions where prediction equals label, divided by the number of labels |
| Accuracy.WindowScoreMeaning | inclearn/lib/utils.py:23-31 | a window's score is NaN exactly when no label falls in the window. Otherwise it is the number of correctly predicted labels in the window, divided by the number of labels in it. |
| Accuracy.ReportWindows | inclearn/lib/utils.py:22-31 | the report has one entry per range start, and entry k is the window starting at k x task_size. Its key parses back to that window's first and last class. Its score is NaN when no label falls in the window, and otherwise the number of correctly predicted labels in the window over the number of labels in it. |
| Accuracy.WindowStartsExact | inclearn/lib/utils.py:22 | for a positive task size, the window starts are exactly the multiples of the task size in [0, max(ytrue)) |
| Accuracy.WindowStartsDistinct | inclearn/lib/utils.py:22 | no window start repeats |
| Accuracy.LabelWindow | inclearn/lib/utils.py:22-25 | a label lies in at most one window, the one starting at y - y mod task_size. Some window holds it if and only if the label is non-negative and that start is below max(ytrue). |
| Accuracy.MaxMultipleUncovered | inclearn/lib/utils.py:22-25 | when max(ytrue) is a multiple of the task size, the largest class falls in no window |
| Accuracy.NegativeTaskSizeAllNaN | inclearn/lib/utils.py:22-31 | with a negative task size, every window reported is empty and scores NaN |
| Accuracy.LabelRoundTrip | inclearn/lib/utils.py:27-30 | a window's label parses back to its first and last class, whatever their signs and sizes |
| Accuracy.ReportKeysDistinct | inclearn/lib/utils.py:18-31 | no two window labels coincide and none is `"total"`, so no dictionary entry overwrites another |
| Accuracy.Example | inclearn/lib/utils.py:17-33 | predictions [1,1,2,2] against labels [1,1,2,3] with task size 2 give total 3/4 and windows "00-01" = 2/2 and "02-03" = 1/2 |
| OneHot.ToOnehot | inclearn/lib/utils.py:7-10 | succeeds exactly when the class count is non-negative and every target is a valid column. The negative-class-count error is returned exactly when the class count is negative; an out-of-range target gives the other error. On success, the result has one row per target, each with one entry per class. |
| OneHot.Row | inclearn/lib/utils.py:8-9 | no contract of its own: OneHot.RowsAreOneHot states the contents of each row and OneHot.RowSum its sum |
| OneHot.RowsAreOneHot | inclearn/lib/utils.py:7-10 | entry (i, j) is 1 when j is target i and 0 otherwise, so every row sums to 1 |
| OneHot.DecodeOnehot | inclearn/lib/utils.py:7-10 | reading back the position of the 1 in each row recovers the targets |
| Shapes.ConvExtent | inclearn/convnet/my_resnet.py:39 | a 3x3 convolution with padding 1 and stride s produces ceil(size/s) positions |
| Shapes.SliceExtent | inclearn/convnet/my_resnet.py:21 | the `::2` slice keeps ceil(size/2) positions. Ranges.EvenRangeLength counts the indices `range(0, size, 2)` visits, and Shapes.StrideTwoMatchesSlice ties the count to the stride-2 convolution. |
| Shapes.PoolExtent | inclearn/convnet/my_resnet.py:140 | the 8x8 pool produces floor(size/8) positions, at least one, and needs size >= 8 |
| Shapes.StrideTwoMatchesSlice | inclearn/convnet/my_resnet.py:39-60 | the stride-2 convolution of a dimension-increasing block and the `::2` slice of its shortcut agree on every spatial extent, odd ones included |
| Shapes.StrideOnePreserves | inclearn/convnet/my_resnet.py:42 | a stride-1 3x3 convolution with padding 1 keeps the spatial extent |
| FeatureMaps.Relu | inclearn/convnet/my_resnet.py:53 | ReLU keeps the shape, leaves non-negative values alone and sends every non-positive value to 0 |
| FeatureMaps.Downsample | inclearn/convnet/my_resnet.py:20-21 | keeps batch and channels, halves each spatial extent rounding up, and the value at (n, c, i, j) is the input's value at (n, c, 2i, 2j) |
| FeatureMaps.PadZeros | inclearn/convnet/my_resnet.py:47 | doubles the channels. The first half is the input and the second half is zero. |
| FeatureMaps.Add | inclearn/convnet/my_resnet.py:62 | addition is defined exactly for equal shapes and is pointwise |
| FeatureMaps.Affine | inclearn/convnet/my_resnet.py:40 | a normalisation with scale 0 outputs its shift everywhere, whatever its input |
| Layers.NewBlock | inclearn/convnet/my_resnet.py:27-91 | both block constructors (`ResidualBlock.__init__` at lines 27-48, `PreActResidualBlock.__init__` at lines 70-91): `bn_a` normalises `planes` features after `conv_a` in the first and `inplanes` features before it in the second. A new block is internally consistent. Its first convolution has stride 2 exactly when it increases dimension. It takes `inplanes` channels and outputs twice that when increasing dimension, and `inplanes` otherwise. |
| Blocks.ConvForward | inclearn/convnet/my_resnet.py:39 | a convolution accepts exactly inputs with its input channel count and non-empty spatial extents, and outputs its output channel count for the same batch |
| Blocks.NormForward | inclearn/convnet/my_resnet.py:40 | a batch normalisation accepts exactly its feature count and keeps the shape |
| Blocks.Shortcut | inclearn/convnet/my_resnet.py:58-60 | no contract of its own: Blocks.ShortcutShape gives its shape, and FeatureMaps.Downsample and FeatureMaps.PadZeros give its values |
| Blocks.MainPath | inclearn/convnet/my_resnet.py:50-100 | the residual branch of both forwards (lines 51-56 and 94-100), with no contract of its own: Blocks.MainPathMatchesShortcut states when it succeeds and its shape, and Blocks.PreActDiscardsFirstNorm states which layers it depends on |
| Blocks.BlockForward | inclearn/convnet/my_resnet.py:50-108 | no contract of its own: Blocks.BlockShape, Blocks.ZeroResidualIsShortcut and Blocks.PreActDiscardsFirstNorm state its success condition, output shape and values |
| Blocks.ShortcutShape | inclearn/convnet/my_resnet.py:58-60 | the shortcut of a dimension-increasing block has twice the channels and half the extents rounded up, and is the input otherwise |
| Blocks.MainPathMatchesShortcut | inclearn/convnet/my_resnet.py:50-62 | for a well-formed block, the residual branch succeeds exactly on accepted inputs, and then has the shortcut's shape, so the addition never fails |
| Blocks.BlockShape | inclearn/convnet/my_resnet.py:50-64 | a well-formed block succeeds exactly on inputs with its input channel count. It outputs its output channel count, with extents halved (rounding up) when increasing dimension. |
| Blocks.ZeroResidualIsShortcut | inclearn/convnet/my_resnet.py:50-64 | a post-activation block whose second normalisation has scale 0 and shift 0 outputs its shortcut at every position |
| Blocks.PreActDiscardsFirstNorm | inclearn/convnet/my_resnet.py:93-96 | in the pre-activation block, the first normalisation's parameters and numerics do not affect the output, because `conv_a` reads the raw input |
| Architecture.MakeLayer | inclearn/convnet/my_resnet.py:155-167 | no contract of its own: Architecture.StageLayout states the layout it produces |
| Architecture.Build | inclearn/convnet/my_resnet.py:127-141 | no contract of its own: Architecture.BuildWellWired, Architecture.StageSizes and Architecture.BuildVariant state its wiring, stage sizes and block variant |
| Architecture.BlockModules | inclearn/convnet/my_resnet.py:143 | the modules one block contributes to `self.modules()`, with no contract of its own: Architecture.BlocksModulesContents states that an enumeration holds exactly its blocks' modules |
| Architecture.Modules | inclearn/convnet/my_resnet.py:143 | no contract of its own: Initialisation.FirstPassIsVisitor and Initialisation.InitialisedModules state what the initialisation loops do to the modules it enumerates |
| Architecture.StageLayout | inclearn/convnet/my_resnet.py:155-167 | `_make_layer` yields an optional opening block that doubles the width, then max(n, 0) plain blocks at the resulting width. All blocks are well formed, chained, not last and of the chosen variant. |
| Architecture.StageSizes | inclearn/convnet/my_resnet.py:134-138 | the stages hold max(n,0), 1+max(n-1,0) and 1+max(n-2,0) blocks, plus the final block |
| Architecture.BuildWellWired | inclearn/convnet/my_resnet.py:131-141 | the built network's stem takes the input channels to 16. The blocks chain 16 to 32 to 64 channels, and the pool and output width are 8 and 64. |
| Architecture.WiredBlocks | inclearn/convnet/my_resnet.py:131-138 | in any well-wired network, each block's input width is the previous block's output width, from 16 up to 64 |
| Architecture.BuildVariant | inclearn/convnet/my_resnet.py:127 | every block has the variant chosen by `preact` |
| Architecture.BlocksModulesContents | inclearn/convnet/my_resnet.py:143 | the module enumeration of a block sequence contains exactly the modules of its blocks |
| Initialisation.Visit | inclearn/convnet/my_resnet.py:144-148 | the `isinstance` dispatch of the first loop on one module, with no contract of its own: Initialisation.FirstPassIsVisitor and Initialisation.InitialisedModules state its effect on every enumerated module |
| Initialisation.VisitAll | inclearn/convnet/my_resnet.py:143-148 | the dispatch applied to every module of an enumeration, one result per module: Initialisation.FirstPassIsVisitor equates it with the first loop over the network |
| Initialisation.ZeroBlock | inclearn/convnet/my_resnet.py:151-153 | no contract of its own: Initialisation.InitialisedBlocks and Initialisation.PreActNeverZeroed state that it zeroes `bn_b`'s scale in post-activation blocks only |
| Initialisation.FirstPass | inclearn/convnet/my_resnet.py:143-148 | no contract of its own: Initialisation.FirstPassIsVisitor states that it is the per-module initialiser applied to every enumerated module |
| Initialisation.ZeroResidualPass | inclearn/convnet/my_resnet.py:150-153 | no contract of its own: Initialisation.InitialisedBlocks and Initialisation.PreActNeverZeroed state which scales it zeroes |
| Initialisation.Initialise | inclearn/convnet/my_resnet.py:143-153 | no contract of its own: Initialisation.InitialisedBlocks, Initialisation.InitialisedModules and Initialisation.InitialisePreservesWiring state its effect |
| Initialisation.FirstPassIsVisitor | inclearn/convnet/my_resnet.py:143-148 | initialising the network gives the same modules as applying the per-module initialiser to every enumerated module |
| Initialisation.InitialisedBlocks | inclearn/convnet/my_resnet.py:143-153 | after both loops, every convolution has the Kaiming fan-out initialiser and every shift is 0. Every scale is 1, except that a post-activation block's second normalisation has scale 0 under `zero_residual`. |
| Initialisation.InitialisedModules | inclearn/convnet/my_resnet.py:143-153 | every enumerated module is initialised, and the only scale that is not 1 is a zero scale under `zero_residual` |
| Initialisation.PreActNeverZeroed | inclearn/convnet/my_resnet.py:150-153 | pre-activation blocks keep scale 1 in both normalisations, because the second loop only matches `ResidualBlock` |
| Initialisation.InitialisePreservesWiring | inclearn/convnet/my_resnet.py:143-153 | initialisation changes parameters, never the wiring |
| ResNet.Channels | inclearn/convnet/my_resnet.py:117 | no contract of its own: ResNet.CifarResNet states that the stem is wired for this channel count |
| ResNet.SelectedVariant | inclearn/convnet/my_resnet.py:127 | no contract of its own: ResNet.ConstructedBlocks states that every block has this variant |
| ResNet.ZeroResidual | inclearn/convnet/my_resnet.py:150 | no contract of its own: ResNet.ConstructedBlocks and ResNet.ZeroResidualNetwork state its effect on the blocks |
| ResNet.CifarResNet | inclearn/convnet/my_resnet.py:117-153 | construction fails exactly when a keyword outside `n`, `channels`, `preact` and `zero_residual` is passed, and it reports those keywords. Otherwise the network is well wired for the requested channels, and stages 1, 2 and 3 hold max(n,0), 1+max(n-1,0) and 1+max(n-2,0) blocks for the `n` keyword, 5 by default. |
| ResNet.ConstructedBlocks | inclearn/convnet/my_resnet.py:127-153 | every block of a constructed network has the chosen variant and the initialised parameters |
| ResNet.ResnetRebuffi | inclearn/convnet/my_resnet.py:192-193 | `resnet_rebuffi` builds the same network as `CifarResNet` with the same keywords |
| ResNet.ForwardedDefault | inclearn/convnet/my_resnet.py:192-193 | forwarding `n` with its default of 5 changes neither the channel count nor the network |
| ResNet.EndFeatures | inclearn/convnet/my_resnet.py:185-189 | pooling and flattening succeed exactly for a non-empty batch with both extents at least 8. The result has one row per sample and channels x pooled height x pooled width columns. |
| ResNet.Stem | inclearn/convnet/my_resnet.py:170-171 | no contract of its own: ResNet.StemShape states when it succeeds and its output shape |
| ResNet.StageForward | inclearn/convnet/my_resnet.py:173-175 | no contract of its own: ResNet.StageForwardShape and ResNet.WiredStageForward state when a stage succeeds and its output shape |
| ResNet.Head | inclearn/convnet/my_resnet.py:178-183 | no contract of its own: ResNet.ForwardDataflow and ResNet.ForwardOutputShapes state what it returns with and without the hook |
| ResNet.Forward | inclearn/convnet/my_resnet.py:169-183 | no contract of its own: ResNet.ForwardSucceeds, ResNet.ForwardOutputShapes and ResNet.ForwardDataflow state when it succeeds, its output shapes and its dataflow |
| ResNet.RunStages | inclearn/convnet/my_resnet.py:173-176 | running the stages yields one output per stage, and the first is the first stage applied to the input |
| ResNet.RunStagesChain | inclearn/convnet/my_resnet.py:173-176 | each stage's output is the next stage applied to the previous output |
| ResNet.StageForwardShape | inclearn/convnet/my_resnet.py:164-167 | a chained sequence of well-formed blocks accepts its input width and applies each block's shape change in turn |
| ResNet.WiredStageForward | inclearn/convnet/my_resnet.py:155-167 | a wired stage maps (N, C, h, w) to (N, out, h, w), or to (N, out, ceil(h/2), ceil(w/2)) when it opens with a dimension increase |
| ResNet.RunStagesShape | inclearn/convnet/my_resnet.py:173-176 | a chain of wired stages succeeds, and each stage's output has the width and halving its wiring prescribes |
| ResNet.StemShape | inclearn/convnet/my_resnet.py:170-171 | the stem accepts exactly the configured channels with non-empty extents, and yields 16 channels at the input's extents |
| ResNet.StagesShape | inclearn/convnet/my_resnet.py:173-176 | after the stem, the four stage outputs are (N,16,H,W), (N,32,ceil(H/2),ceil(W/2)) and twice (N,64,ceil(H/4),ceil(W/4)) |
| ResNet.ForwardSucceeds | inclearn/convnet/my_resnet.py:169-189 | the forward pass of a well-wired network succeeds if and only if the input has the configured channels, a non-empty batch, and height and width that are still at least 8 after two halvings |
| ResNet.ForwardOutputShapes | inclearn/convnet/my_resnet.py:169-189 | raw features and features have one row per sample and 64 x pooled height x pooled width columns. The stage outputs are returned exactly under the attention hook, with the four stage shapes. |
| ResNet.ThirtyTwoByThirtyTwo | inclearn/convnet/my_resnet.py:140-141 | on 32x32 inputs both feature matrices have `out_dim` = 64 columns, and with the attention hook the last returned stage output has shape (N, 64, 8, 8) |
| ResNet.ForwardDataflow | inclearn/convnet/my_resnet.py:169-183 | the hooked stage outputs feed each other in order. The raw features pool the last stage output, and the features pool its ReLU. Without the hook, the same pair is returned alone. |
| ResNet.ZeroResidualNetwork | inclearn/convnet/my_resnet.py:150-153 | in a post-activation network built with `zero_residual`, every block initially outputs its shortcut at every position |

## Left out

- Tensor numerics: convolution weights, batch-normalisation statistics and average-pool values are opaque per-layer functions. Only their shapes, wiring and failure conditions are modelled. Floating point is modelled as exact reals.
- Kaiming sampling: initialisation records which initialiser a convolution receives, not the random values drawn. Randomness is outside the model.
- Per-channel batch-normalisation parameters: each normalisation carries one scale and one shift. Every initialisation in the code sets all channels to the same constant, so this loses nothing the code decides.
- Batch-normalisation training-mode failures, such as a batch of one sample with 1x1 extents: these come from PyTorch's statistics, not from this code.
- `round(..., 3)` in `compute_accuracy`: scores are kept as exact ratios (hits, size), because rounding a float is not modelled.
- Accuracy.ComputeAccuracy: requires predictions and labels of equal length. NumPy's broadcasting and shape errors on other lengths are not modelled.
- ResNet.CifarResNet: requires a non-negative `channels` when every keyword is known. With a negative count, PyTorch's `Conv2d` raises inside its own constructor, and that constructor is not part of this model. A call with an unknown keyword is modelled for every channel count, because its `ValueError` comes before any layer is built.
- Keyword arguments are modelled as a map from name to integer, with Python booleans as 0 and 1. Positional arguments are not modelled.
- `to_onehot` on floating-point targets: targets are integers, so the `.long()` truncation is not modelled. Device placement is not modelled.
- In-place ReLU aliasing: the model is purely functional. In the code, the in-place ReLUs operate on fresh intermediate tensors, so no caller-visible value changes.
- `x.mul(0)` in the zero padding is modelled as exact zeros. NaN or infinite inputs, for which it would not be zero, are outside the model.
- The `last` flag and DownsampleStride's `n` are stored but never read by any forward pass. They are recorded, not used.
- The rest of the library's utilities (`_check_loss`, `get_date`, feature extraction, classification) and the command-line parser are not part of this model.
- FeatureMaps.Add: does not model broadcasting in the residual addition `x + y`, because it is defined only for equal shapes. Blocks.MainPathMatchesShortcut shows that a well-formed block always adds two maps of the same shape, so no input of a constructed network reaches the broadcasting case.

=== FILE: accuracy.dfy ===
/** `compute_accuracy` of the evaluation helpers: overall accuracy plus one
    accuracy per task window, a window being the class labels
    `[start, start + task_size)` for the starts `range(0, max(ytrue), task_size)`.
    Accuracies are kept as exact ratios; the rounding to three decimals is not modelled. */
module Accuracy {
  import opened Wrappers
  import opened Ranges
  import opened Decimal

  /** An accuracy `hits / size`, or the NaN that numpy yields for `0 / 0`
      when a window has no members (`compute_accuracy` has no guard against it). */
  datatype Score = Ratio(hits: nat, size: nat) | NotANumber

  datatype Window = Window(key: string, score: Score)

  /** The returned dictionary: key "total" first, then one key per window in
      insertion order. */
  datatype Report = Report(total: Score, windows: seq<Window>)

  /** `np.max` of an empty array raises; `range` with a zero step raises. */
  datatype AccuracyError = EmptyLabels | ZeroTaskSize

  /** A score that lies in [0, 1]. */
  predicate Bounded(s: Score) {
    s.Ratio? ==> 0 < s.size && s.hits <= s.size
  }

  /** `(a == b).sum()` for two aligned integer arrays. */
  function Hits(a: seq<int>, b: seq<int>): (r: nat)
    requires |a| == |b|
    ensures r <= |a|
  {
    if |a| == 0 then 0
    else Hits(a[..|a| - 1], b[..|b| - 1]) + (if a[|a| - 1] == b[|b| - 1] then 1 else 0)
  }

  /** `np.max` of a non-empty integer array. */
  function Max(s: seq<int>): (m: int)
    requires |s| > 0
    ensures m in s
    ensures forall k :: 0 <= k < |s| ==> s[k] <= m
  {
    if |s| == 1 then s[0]
    else
      var m' := Max(s[..|s| - 1]);
      assert forall k :: 0 <= k < |s| - 1 ==> s[..|s| - 1][k] == s[k];
      if s[|s| - 1] > m' then s[|s| - 1] else m'
  }

  predicate InWindow(y: int, start: int, size: int) {
    start <= y < start + size
  }

  /** `np.where((ytrue >= start) & (ytrue < start + size))[0]`, restricted to
      positions below `n`: the ascending positions whose label is in the window. */
  function Members(ytrue: seq<int>, start: int, size: int, n: nat): (r: seq<nat>)
    requires n <= |ytrue|
    ensures forall k :: 0 <= k < |r| ==> r[k] < n
  {
    if n == 0 then []
    else Members(ytrue, start, size, n - 1) + (if InWindow(ytrue[n - 1], start, size) then [n - 1] else [])
  }

  /** Fancy indexing `s[idxes]`. */
  function Gather(s: seq<int>, idxes: seq<nat>): (r: seq<int>)
    requires forall k :: 0 <= k < |idxes| ==> idxes[k] < |s|
    ensures |r| == |idxes|
  {
    seq(|idxes|, k requires 0 <= k < |idxes| => s[idxes[k]])
  }

  /** Accuracy restricted to the examples whose true label lies in the window. */
  function WindowScore(ypred: seq<int>, ytrue: seq<int>, start: int, size: int): Score
    requires |ypred| == |ytrue|
  {
    var idxes := Members(ytrue, start, size, |ytrue|);
    if |idxes| == 0 then NotANumber
    else Ratio(Hits(Gather(ypred, idxes), Gather(ytrue, idxes)), |idxes|)
  }

  /** `"{}-{}".format(str(start).rjust(2, "0"), str(start + size - 1).rjust(2, "0"))`. */
  function WindowLabel(start: int, size: int): string {
    RJust(IntToString(start), 2, '0') + "-" + RJust(IntToString(start + size - 1), 2, '0')
  }

  function WindowStarts(ytrue: seq<int>, taskSize: int): seq<int>
    requires |ytrue| > 0 && taskSize != 0
  {
    PyRange(0, Max(ytrue), taskSize)
  }

  /** `compute_accuracy(ypred, ytrue, task_size)`; the default task size is 10.
      Predictions and labels are aligned arrays of the same length. */
  function ComputeAccuracy(ypred: seq<int>, ytrue: seq<int>, taskSize: int): (r: Result<Report, AccuracyError>)
    requires |ypred| == |ytrue|
    ensures r.Err? <==> |ytrue| == 0 || taskSize == 0
    ensures r == Err(EmptyLabels) <==> |ytrue| == 0
    ensures r.Ok? ==> r.value.total.Ratio? && r.value.total.size == |ytrue| && Bounded(r.value.total)
    ensures r.Ok? ==> forall k :: 0 <= k < |r.value.windows| ==> Bounded(r.value.windows[k].score)
  {
    if |ytrue| == 0 then Err(EmptyLabels)
    else if taskSize == 0 then Err(ZeroTaskSize)
    else
      var starts := WindowStarts(ytrue, taskSize);
      Ok(Report(
        Ratio(Hits(ypred, ytrue), |ytrue|),
        seq(|starts|, k requires 0 <= k < |starts| =>
          Window(WindowLabel(starts[k], taskSize), WindowScore(ypred, ytrue, starts[k], taskSize)))))
  }

  // ---------------------------------------------------------------------------
  // Reference definitions: the counts as cardinalities of index sets.

  ghost function MatchSet(ypred: seq<int>, ytrue: seq<int>, n: nat): set<nat>
    requires n <= |ypred| == |ytrue|
  {
    set i: nat | i < n && ypred[i] == ytrue[i]
  }

  ghost function MemberSet(ytrue: seq<int>, start: int, size: int, n: nat): set<nat>
    requires n <= |ytrue|
  {
    set i: nat | i < n && InWindow(ytrue[i], start, size)
  }

  ghost function WindowHitSet(ypred: seq<int>, ytrue: seq<int>, start: int, size: int, n: nat): set<nat>
    requires n <= |ypred| == |ytrue|
  {
    set i: nat | i < n && InWindow(ytrue[i], start, size) && ypred[i] == ytrue[i]
  }

  lemma {:induction false} HitsCountsMatches(ypred: seq<int>, ytrue: seq<int>)
    requires |ypred| == |ytrue|
    ensures Hits(ypred, ytrue) == |MatchSet(ypred, ytrue, |ytrue|)|
  {
    var n := |ytrue|;
    if n > 0 {
      var p, t := ypred[..n - 1], ytrue[..n - 1];
      HitsCountsMatches(p, t);
      var last := if ypred[n - 1] == ytrue[n - 1] then {n - 1} else {};
      assert MatchSet(ypred, ytrue, n) == MatchSet(p, t, n - 1) + last;
      assert (n - 1) !in MatchSet(p, t, n - 1);
    }
  }

  lemma HitsSnoc(a: seq<int>, b: seq<int>, x: int, y: int)
    requires |a| == |b|
    ensures Hits(a + [x], b + [y]) == Hits(a, b) + (if x == y then 1 else 0)
  {
    assert (a + [x])[..|a|] == a;
    assert (b + [y])[..|b|] == b;
  }

  lemma WindowCounts(ypred: seq<int>, ytrue: seq<int>, start: int, size: int, n: nat)
    requires n <= |ypred| == |ytrue|
    ensures |Members(ytrue, start, size, n)| == |MemberSet(ytrue, start, size, n)|
    ensures Hits(Gather(ypred, Members(ytrue, start, size, n)), Gather(ytrue, Members(ytrue, start, size, n)))
         == |WindowHitSet(ypred, ytrue, start, size, n)|
  {
    MembersCount(ytrue, start, size, n);
    WindowHitsCount(ypred, ytrue, start, size, n);
  }

  lemma {:induction false} MembersCount(ytrue: seq<int>, start: int, size: int, n: nat)
    requires n <= |ytrue|
    ensures |Members(ytrue, start, size, n)| == |MemberSet(ytrue, start, size, n)|
  {
    if n > 0 {
      MembersCount(ytrue, start, size, n - 1);
      MemberSetStep(ytrue, start, size, n);
    }
  }

  lemma MemberSetStep(ytrue: seq<int>, start: int, size: int, n: nat)
    requires 0 < n <= |ytrue|
    ensures (n - 1) !in MemberSet(ytrue, start, size, n - 1)
    ensures MemberSet(ytrue, start, size, n)
      == MemberSet(ytrue, start, size, n - 1) + (if InWindow(ytrue[n - 1], start, size) then {n - 1} else {})
  {
  }

  lemma WindowHitSetStep(ypred: seq<int>, ytrue: seq<int>, start: int, size: int, n: nat)
    requires 0 < n <= |ypred| == |ytrue|
    ensures (n - 1) !in WindowHitSet(ypred, ytrue, start, size, n - 1)
    ensures WindowHitSet(ypred, ytrue, start, size, n)
      == WindowHitSet(ypred, ytrue, start, size, n - 1)
         + (if InWindow(ytrue[n - 1], start, size) && ypred[n - 1] == ytrue[n - 1] then {n - 1} else {})
  {
  }

  /** Accuracy count over the members below `n`. */
  function MemberHits(ypred: seq<int>, ytrue: seq<int>, start: int, size: int, n: nat): nat
    requires n <= |ypred| == |ytrue|
  {
    var m := Members(ytrue, start, size, n);
    Hits(Gather(ypred, m), Gather(ytrue, m))
  }

  lemma MemberHitsStep(ypred: seq<int>, ytrue: seq<int>, start: int, size: int, n: nat)
    requires 0 < n <= |ypred| == |ytrue|
    ensures MemberHits(ypred, ytrue, start, size, n)
      == MemberHits(ypred, ytrue, start, size, n - 1)
         + (if InWindow(ytrue[n - 1], start, size) && ypred[n - 1] == ytrue[n - 1] then 1 else 0)
  {
    var m := Members(ytrue, start, size, n - 1);
    if InWindow(ytrue[n - 1], start, size) {
      assert Members(ytrue, start, size, n) == m + [n - 1];
      GatherSnoc(ypred, m, n - 1);
      GatherSnoc(ytrue, m, n - 1);
      HitsSnoc(Gather(ypred, m), Gather(ytrue, m), ypred[n - 1], ytrue[n - 1]);
    } else {
      assert Members(ytrue, start, size, n) == m;
    }
  }

  lemma GatherSnoc(s: seq<int>, idxes: seq<nat>, i: nat)
    requires forall k :: 0 <= k < |idxes| ==> idxes[k] < |s|
    requires i < |s|
    ensures Gather(s, idxes + [i]) == Gather(s, idxes) + [s[i]]
  {
  }

  lemma {:induction false} WindowHitsCount(ypred: seq<int>, ytrue: seq<int>, start: int, size: int, n: nat)
    requires n <= |ypred| == |ytrue|
    ensures MemberHits(ypred, ytrue, start, size, n) == |WindowHitSet(ypred, ytrue, start, size, n)|
  {
    if n > 0 {
      WindowHitsCount(ypred, ytrue, start, size, n - 1);
      MemberHitsStep(ypred, ytrue, start, size, n);
      WindowHitSetStep(ypred, ytrue, start, size, n);
    }
  }

  // ---------------------------------------------------------------------------
  // Properties of the report.

  /** The overall accuracy is the number of positions where prediction and
      label agree, over the number of labels. */
  lemma TotalIsMatchFraction(ypred: seq<int>, ytrue: seq<int>, taskSize: int)
    requires |ypred| == |ytrue|
    requires ComputeAccuracy(ypred, ytrue, taskSize).Ok?
    ensures ComputeAccuracy(ypred, ytrue, taskSize).value.total
         == Ratio(|MatchSet(ypred, ytrue, |ytrue|)|, |ytrue|)
  {
    HitsCountsMatches(ypred, ytrue);
  }

  /** A window's accuracy counts only the examples whose true label is in the
      window; it is NaN exactly when the window has no members. */
  lemma WindowScoreMeaning(ypred: seq<int>, ytrue: seq<int>, start: int, size: int)
    requires |ypred| == |ytrue|
    ensures var members := MemberSet(ytrue, start, size, |ytrue|);
      WindowScore(ypred, ytrue, start, size)
      == if |members| == 0 then NotANumber
         else Ratio(|WindowHitSet(ypred, ytrue, start, size, |ytrue|)|, |members|)
  {
    WindowCounts(ypred, ytrue, start, size, |ytrue|);
  }

  /** The k-th entry of the report is the window starting at `k * task_size`: its
      key names the window's first and last class, and its score is NaN when no
      label falls in the window and otherwise the fraction of the window's labels
      that are predicted correctly. */
  lemma ReportWindows(ypred: seq<int>, ytrue: seq<int>, taskSize: int, k: nat)
    requires |ypred| == |ytrue|
    requires ComputeAccuracy(ypred, ytrue, taskSize).Ok?
    ensures |ytrue| > 0 && taskSize != 0
    ensures |ComputeAccuracy(ypred, ytrue, taskSize).value.windows| == |WindowStarts(ytrue, taskSize)|
    ensures k < |WindowStarts(ytrue, taskSize)| ==> WindowStarts(ytrue, taskSize)[k] == k * taskSize
    ensures k < |WindowStarts(ytrue, taskSize)| ==>
      var start := k * taskSize;
      ParseLabel(ComputeAccuracy(ypred, ytrue, taskSize).value.windows[k].key)
      == Some((start, start + taskSize - 1))
    ensures k < |WindowStarts(ytrue, taskSize)| ==>
      var start := k * taskSize;
      var members := MemberSet(ytrue, start, taskSize, |ytrue|);
      ComputeAccuracy(ypred, ytrue, taskSize).value.windows[k].score
      == if |members| == 0 then NotANumber
         else Ratio(|WindowHitSet(ypred, ytrue, start, taskSize, |ytrue|)|, |members|)
  {
    var w := ComputeAccuracy(ypred, ytrue, taskSize).value.windows;
    var starts := WindowStarts(ytrue, taskSize);
    assert |w| == |starts|;
    if k < |starts| {
      var start := starts[k];
      assert start == k * taskSize;
      assert w[k] == Window(WindowLabel(start, taskSize), WindowScore(ypred, ytrue, start, taskSize));
      LabelRoundTrip(start, taskSize);
      WindowScoreMeaning(ypred, ytrue, start, taskSize);
    }
  }

  // ---------------------------------------------------------------------------
  // Window enumeration.

  lemma MulPositive(a: int, d: int)
    requires a >= 1 && d > 0
    ensures a * d >= d
  {
    assert a * d == (a - 1) * d + d;
    assert (a - 1) * d >= 0;
  }

  lemma MulSign(a: int, d: int)
    requires d > 0
    ensures a * d > 0 <==> a > 0
  {
    if a > 0 {
      MulPositive(a, d);
    } else {
      assert a * d == -((-a) * d);
      assert (-a) * d >= 0;
    }
  }

  /** Euclidean division is determined by quotient and remainder. */
  lemma DivModUnique(x: int, d: int, q: int, m: int)
    requires d > 0 && x == q * d + m && 0 <= m < d
    ensures x / d == q && x % d == m
  {
    var q', m' := x / d, x % d;
    assert x == q' * d + m';
    if q > q' {
      assert (q - q') * d == q * d - q' * d;
      MulPositive(q - q', d);
    } else if q < q' {
      assert (q' - q) * d == q' * d - q * d;
      MulPositive(q' - q, d);
    }
  }

  lemma FloorQuotientUnique(y: int, d: int, k: int)
    requires d > 0
    ensures k * d <= y < k * d + d <==> k == y / d
  {
    if k * d <= y < k * d + d {
      DivModUnique(y, d, k, y - k * d);
    }
    if k == y / d {
      assert y == k * d + y % d;
    }
  }

  /** With a positive task size, the window starts are exactly the multiples of
      the task size from 0 up to, but excluding, the largest label. */
  lemma WindowStartsExact(ytrue: seq<int>, taskSize: int, c: int)
    requires |ytrue| > 0 && taskSize > 0
    ensures c in WindowStarts(ytrue, taskSize) <==> 0 <= c < Max(ytrue) && c % taskSize == 0
  {
    var r := WindowStarts(ytrue, taskSize);
    if c in r {
      var k :| 0 <= k < |r| && r[k] == c;
      StartIsMultiple(Max(ytrue), taskSize, k);
    }
    if 0 <= c < Max(ytrue) && c % taskSize == 0 {
      MultipleIsStart(Max(ytrue), taskSize, c);
    }
  }

  lemma StartIsMultiple(stop: int, d: int, k: nat)
    requires d > 0 && k < |PyRange(0, stop, d)|
    ensures 0 <= PyRange(0, stop, d)[k] < stop && PyRange(0, stop, d)[k] % d == 0
  {
    var c := PyRange(0, stop, d)[k];
    assert c == k * d;
    DivModUnique(c, d, k, 0);
  }

  lemma MultipleIsStart(stop: int, d: int, c: int)
    requires d > 0 && 0 <= c < stop && c % d == 0
    ensures c in PyRange(0, stop, d)
  {
    var r := PyRange(0, stop, d);
    var k := c / d;
    assert c == k * d by {
      assert c == k * d + c % d;
    }
    assert k < |r| by {
      MulBelow(k, |r|, d);
    }
    assert r[k] == c;
  }

  lemma MulBelow(k: int, n: int, d: int)
    requires d > 0 && k * d < n * d
    ensures k < n
  {
    assert (n - k) * d == n * d - k * d;
    MulSign(n - k, d);
  }

  /** The starts are strictly increasing multiples of the task size, so no two
      windows share a start. */
  lemma WindowStartsDistinct(ytrue: seq<int>, taskSize: int, k1: nat, k2: nat)
    requires |ytrue| > 0 && taskSize != 0
    requires k1 < k2 < |WindowStarts(ytrue, taskSize)|
    ensures WindowStarts(ytrue, taskSize)[k1] != WindowStarts(ytrue, taskSize)[k2]
  {
    var r := WindowStarts(ytrue, taskSize);
    assert r[k2] - r[k1] == (k2 - k1) * taskSize;
    assert (k2 - k1) * taskSize != 0;
  }

  /** With a positive task size, a label falls in the window of start
      `y - y % task_size` and in no other, and that window is reported exactly
      when the label is non-negative and its window starts below the largest label. */
  lemma LabelWindow(ytrue: seq<int>, taskSize: int, y: int)
    requires |ytrue| > 0 && taskSize > 0
    ensures forall k :: 0 <= k < |WindowStarts(ytrue, taskSize)| ==>
      (InWindow(y, WindowStarts(ytrue, taskSize)[k], taskSize) ==> WindowStarts(ytrue, taskSize)[k] == y - y % taskSize)
    ensures (exists k :: 0 <= k < |WindowStarts(ytrue, taskSize)| && InWindow(y, WindowStarts(ytrue, taskSize)[k], taskSize))
      <==> 0 <= y && y - y % taskSize < Max(ytrue)
  {
    LabelWindowUnique(ytrue, taskSize, y);
    if 0 <= y && y - y % taskSize < Max(ytrue) {
      LabelWindowCovered(ytrue, taskSize, y);
    }
    if exists k :: 0 <= k < |WindowStarts(ytrue, taskSize)| && InWindow(y, WindowStarts(ytrue, taskSize)[k], taskSize) {
      LabelWindowReported(ytrue, taskSize, y);
    }
  }

  /** Windows of a positive size starting at multiples of it never overlap. */
  lemma LabelWindowUnique(ytrue: seq<int>, taskSize: int, y: int)
    requires |ytrue| > 0 && taskSize > 0
    ensures forall k :: 0 <= k < |WindowStarts(ytrue, taskSize)| ==>
      (InWindow(y, WindowStarts(ytrue, taskSize)[k], taskSize) ==> WindowStarts(ytrue, taskSize)[k] == y - y % taskSize)
  {
    var r := WindowStarts(ytrue, taskSize);
    forall k | 0 <= k < |r| && InWindow(y, r[k], taskSize)
      ensures r[k] == y - y % taskSize
    {
      assert r[k] == k * taskSize;
      FloorQuotientUnique(y, taskSize, k);
      assert y == (y / taskSize) * taskSize + y % taskSize;
    }
  }

  lemma LabelWindowCovered(ytrue: seq<int>, taskSize: int, y: int)
    requires |ytrue| > 0 && taskSize > 0
    requires 0 <= y && y - y % taskSize < Max(ytrue)
    ensures exists k :: 0 <= k < |WindowStarts(ytrue, taskSize)| && InWindow(y, WindowStarts(ytrue, taskSize)[k], taskSize)
  {
    var r := WindowStarts(ytrue, taskSize);
    var q := y / taskSize;
    assert y == q * taskSize + y % taskSize;
    var c := q * taskSize;
    assert c % taskSize == 0 by {
      DivModUnique(c, taskSize, q, 0);
    }
    WindowStartsExact(ytrue, taskSize, c);
    var k :| 0 <= k < |r| && r[k] == c;
    assert InWindow(y, r[k], taskSize);
  }

  lemma LabelWindowReported(ytrue: seq<int>, taskSize: int, y: int)
    requires |ytrue| > 0 && taskSize > 0
    requires exists k :: 0 <= k < |WindowStarts(ytrue, taskSize)| && InWindow(y, WindowStarts(ytrue, taskSize)[k], taskSize)
    ensures 0 <= y && y - y % taskSize < Max(ytrue)
  {
    var r := WindowStarts(ytrue, taskSize);
    var k :| 0 <= k < |r| && InWindow(y, r[k], taskSize);
    LabelWindowUnique(ytrue, taskSize, y);
    WindowStartsExact(ytrue, taskSize, r[k]);
  }

  /** The largest label, when it is a multiple of the task size, belongs to no
      reported window: the starts stop strictly below it. */
  lemma MaxMultipleUncovered(ytrue: seq<int>, taskSize: int)
    requires |ytrue| > 0 && taskSize > 0
    requires Max(ytrue) % taskSize == 0
    ensures forall k :: 0 <= k < |WindowStarts(ytrue, taskSize)| ==>
      !InWindow(Max(ytrue), WindowStarts(ytrue, taskSize)[k], taskSize)
  {
    LabelWindow(ytrue, taskSize, Max(ytrue));
  }

  /** With a negative task size every window `[start, start + task_size)` is
      empty, so every reported window accuracy is NaN. */
  lemma NegativeTaskSizeAllNaN(ypred: seq<int>, ytrue: seq<int>, taskSize: int)
    requires |ypred| == |ytrue| > 0 && taskSize < 0
    ensures forall w :: w in ComputeAccuracy(ypred, ytrue, taskSize).value.windows ==> w.score == NotANumber
  {
    var starts := WindowStarts(ytrue, taskSize);
    forall k | 0 <= k < |starts|
      ensures WindowScore(ypred, ytrue, starts[k], taskSize) == NotANumber
    {
      WindowScoreMeaning(ypred, ytrue, starts[k], taskSize);
      assert MemberSet(ytrue, starts[k], taskSize, |ytrue|) == {};
    }
  }

  // ---------------------------------------------------------------------------
  // Window labels.

  /** Position of the first '-' at or after `from`, or `|l|` when there is none. */
  function FirstDash(l: string, from: nat): (k: nat)
    ensures k <= |l|
    decreases |l| - from
  {
    if from >= |l| then |l| else if l[from] == '-' then from else FirstDash(l, from + 1)
  }

  /** Reads a window label back into its first and last class; a leading '-'
      belongs to the first number. */
  function ParseLabel(l: string): Option<(int, int)> {
    var k := FirstDash(l, 1);
    if k < |l| && IsNumeral(l[..k]) && IsNumeral(l[k + 1..]) then
      Some((ParseInt(l[..k]), ParseInt(l[k + 1..])))
    else
      None
  }

  lemma {:induction false} FirstDashSkipsDigits(l: string, from: nat, k: nat)
    requires from <= k < |l| && l[k] == '-'
    requires forall j :: from <= j < k ==> IsDigit(l[j])
    ensures FirstDash(l, from) == k
    decreases k - from
  {
    if from < k {
      FirstDashSkipsDigits(l, from + 1, k);
    }
  }

  /** The label of a window names its first and its last class. */
  lemma LabelRoundTrip(start: int, size: int)
    ensures ParseLabel(WindowLabel(start, size)) == Some((start, start + size - 1))
  {
    var p := RJust(IntToString(start), 2, '0');
    var q := RJust(IntToString(start + size - 1), 2, '0');
    PaddedRoundTrip(start);
    PaddedRoundTrip(start + size - 1);
    PaddedSign(start);
    JoinedLabel(p, q);
  }

  /** Two numerals joined by '-' split back at that dash, provided the first
      has no dash after its leading character. */
  lemma JoinedLabel(p: string, q: string)
    requires |p| >= 1 && forall j :: 1 <= j < |p| ==> IsDigit(p[j])
    requires IsNumeral(p) && IsNumeral(q)
    ensures ParseLabel(p + "-" + q) == Some((ParseInt(p), ParseInt(q)))
  {
    var l := p + "-" + q;
    assert forall j :: 1 <= j < |p| ==> l[j] == p[j];
    FirstDashSkipsDigits(l, 1, |p|);
    assert l[..|p|] == p;
    assert l[|p| + 1..] == q;
  }

  /** The dictionary keys are pairwise distinct and never "total", so the report
      as an ordered list of windows loses nothing to key overwriting. */
  lemma ReportKeysDistinct(ypred: seq<int>, ytrue: seq<int>, taskSize: int)
    requires |ypred| == |ytrue|
    requires ComputeAccuracy(ypred, ytrue, taskSize).Ok?
    ensures var ws := ComputeAccuracy(ypred, ytrue, taskSize).value.windows;
      forall k1, k2 :: 0 <= k1 < k2 < |ws| ==> ws[k1].key != ws[k2].key
    ensures forall w :: w in ComputeAccuracy(ypred, ytrue, taskSize).value.windows ==> w.key != "total"
  {
    var ws := ComputeAccuracy(ypred, ytrue, taskSize).value.windows;
    var starts := WindowStarts(ytrue, taskSize);
    forall k1, k2 | 0 <= k1 < k2 < |ws|
      ensures ws[k1].key != ws[k2].key
    {
      WindowStartsDistinct(ytrue, taskSize, k1, k2);
      LabelRoundTrip(starts[k1], taskSize);
      LabelRoundTrip(starts[k2], taskSize);
    }
    forall w | w in ws
      ensures w.key != "total"
    {
      var k :| 0 <= k < |ws| && ws[k] == w;
      var p := RJust(IntToString(starts[k]), 2, '0');
      PaddedRoundTrip(starts[k]);
      assert w.key[0] == p[0];
      assert p[0] == '-' || IsDigit(p[0]);
    }
  }

  /** The worked example: predictions [1,1,2,2] against labels [1,1,2,3] with
      task size 2 give 3/4 overall, 2/2 for "00-01" and 1/2 for "02-03". */
  lemma Example()
    ensures ComputeAccuracy([1, 1, 2, 2], [1, 1, 2, 3], 2)
      == Ok(Report(Ratio(3, 4), [Window("00-01", Ratio(2, 2)), Window("02-03", Ratio(1, 2))]))
  {
    var p, t := [1, 1, 2, 2], [1, 1, 2, 3];
    ExampleStarts();
    ExampleLabels();
    ExampleScores();
    ExampleTotal();
    var expected := Report(Ratio(3, 4), [Window("00-01", Ratio(2, 2)), Window("02-03", Ratio(1, 2))]);
    ReportFromParts(p, t, 2, expected);
  }

  /** A report is determined by its total and its windows, one per start. */
  lemma ReportFromParts(ypred: seq<int>, ytrue: seq<int>, taskSize: int, expected: Report)
    requires |ypred| == |ytrue| > 0 && taskSize != 0
    requires expected.total == Ratio(Hits(ypred, ytrue), |ytrue|)
    requires |expected.windows| == |WindowStarts(ytrue, taskSize)|
    requires forall k :: 0 <= k < |expected.windows| ==>
      var start := WindowStarts(ytrue, taskSize)[k];
      expected.windows[k] == Window(WindowLabel(start, taskSize), WindowScore(ypred, ytrue, start, taskSize))
    ensures ComputeAccuracy(ypred, ytrue, taskSize) == Ok(expected)
  {
    var ws := ComputeAccuracy(ypred, ytrue, taskSize).value.windows;
    assert ws == expected.windows;
  }

  lemma ExampleTotal()
    ensures Hits([1, 1, 2, 2], [1, 1, 2, 3]) == 3
  {
    var p, t := [1, 1, 2, 2], [1, 1, 2, 3];
    assert p[..3] == [1, 1, 2] && t[..3] == [1, 1, 2];
    assert [1, 1, 2][..2] == [1, 1];
    assert [1, 1][..1] == [1];
    assert Hits([1], [1]) == 1;
    assert Hits([1, 1], [1, 1]) == 2;
    assert Hits([1, 1, 2], [1, 1, 2]) == 3;
  }

  lemma ExampleStarts()
    ensures WindowStarts([1, 1, 2, 3], 2) == [0, 2]
  {
    var t := [1, 1, 2, 3];
    assert Max(t[..1]) == 1;
    assert Max(t[..2]) == 1;
    assert Max(t[..3]) == 2;
    assert Max(t) == 3;
    assert PyRange(4, 3, 2) == [];
    assert PyRange(2, 3, 2) == [2];
  }

  lemma ExampleLabels()
    ensures WindowLabel(0, 2) == "00-01"
    ensures WindowLabel(2, 2) == "02-03"
  {
    assert IntToString(0) == "0" && IntToString(1) == "1";
    assert IntToString(2) == "2" && IntToString(3) == "3";
  }

  lemma ExampleScores()
    ensures WindowScore([1, 1, 2, 2], [1, 1, 2, 3], 0, 2) == Ratio(2, 2)
    ensures WindowScore([1, 1, 2, 2], [1, 1, 2, 3], 2, 2) == Ratio(1, 2)
  {
    var p, t := [1, 1, 2, 2], [1, 1, 2, 3];
    assert Members(t, 0, 2, 2) == [0, 1];
    assert Members(t, 0, 2, 4) == [0, 1];
    assert Members(t, 2, 2, 2) == [];
    assert Members(t, 2, 2, 4) == [2, 3];
    assert Gather(p, [0, 1]) == [1, 1];
    assert Gather(t, [0, 1]) == [1, 1];
    assert Gather(p, [2, 3]) == [2, 2];
    assert Gather(t, [2, 3]) == [2, 3];
    assert [1, 1][..1] == [1];
    assert [2, 2][..1] == [2];
    assert [2, 3][..1] == [2];
  }
}

=== FILE: architecture.dfy ===
/** The network's structure as built by `CifarResNet.__init__`: a stem
    convolution and normalisation, three stages made by `_make_layer`, a single
    final block, and the feature head's pooling. Also the enumeration of its
    modules in the order `nn.Module.modules()` visits them. */
module Architecture {
  import opened Shapes
  import opened Layers

  /** Channel width of the stem and of the first stage. */
  const StemWidth: nat := 16
  /** `out_dim`: channel width of the last block, hence of the feature vector
      for a 32x32 input. */
  const OutDim: nat := 64

  datatype Network = Network(
    stemConv: Conv,
    stemBn: BatchNorm,
    stage1: seq<Block>,
    stage2: seq<Block>,
    stage3: seq<Block>,
    stage4: Block,
    poolKernel: nat,
    outDim: nat)

  function MaxZero(n: int): nat {
    if n > 0 then n else 0
  }

  /** `_make_layer(Block, planes, increase_dim, last, n)`: an optional
      dimension-increasing block at `planes`, then `range(n)` blocks at the
      resulting width. The `last` argument is accepted and ignored. */
  function MakeLayer(variant: Variant, planes: nat, increaseDim: bool, last: bool, n: int): seq<Block> {
    var head := if increaseDim then [NewBlock(variant, planes, true, false)] else [];
    var width := if increaseDim then 2 * planes else planes;
    head + seq(MaxZero(n), _ => NewBlock(variant, width, false, false))
  }

  /** Every block's input width is the previous block's output width, the first
      block's is `inplanes`. */
  predicate Chained(blocks: seq<Block>, inplanes: nat) {
    && (|blocks| > 0 ==> blocks[0].InPlanes() == inplanes)
    && forall k :: 0 <= k < |blocks| - 1 ==> blocks[k + 1].InPlanes() == blocks[k].OutPlanes()
  }

  /** Output width of a chain of blocks entered at `inplanes`. */
  function StageOut(blocks: seq<Block>, inplanes: nat): nat {
    if |blocks| == 0 then inplanes else blocks[|blocks| - 1].OutPlanes()
  }

  predicate AllWellFormed(blocks: seq<Block>) {
    forall k :: 0 <= k < |blocks| ==> WellFormed(blocks[k])
  }

  /** The layout `_make_layer` produces: with `increase_dim`, one increasing
      block at `planes` followed by `max(n, 0)` plain blocks at `2 * planes`;
      without it, `max(n, 0)` plain blocks at `planes`. The blocks chain, are
      well-formed and none is marked last. */
  lemma StageLayout(variant: Variant, planes: nat, increaseDim: bool, last: bool, n: int)
    ensures var r := MakeLayer(variant, planes, increaseDim, last, n);
      && |r| == (if increaseDim then 1 else 0) + MaxZero(n)
      && (increaseDim ==> r[0] == NewBlock(variant, planes, true, false))
      && (forall k :: (if increaseDim then 1 else 0) <= k < |r| ==>
            r[k] == NewBlock(variant, if increaseDim then 2 * planes else planes, false, false))
      && AllWellFormed(r)
      && (forall k :: 0 <= k < |r| ==> !r[k].last && r[k].variant == variant)
      && Chained(r, planes)
      && StageOut(r, planes) == if increaseDim then 2 * planes else planes
  {
  }

  /** The structure `CifarResNet.__init__` builds before initialising any
      parameter. Stages 2 and 3 use `n - 1` and `n - 2` further blocks, and a
      negative count gives an empty `range`. */
  function Build(variant: Variant, channels: nat, n: int): Network {
    Network(
      NewConv(channels, StemWidth, 1),
      NewBatchNorm(StemWidth),
      MakeLayer(variant, 16, false, false, n),
      MakeLayer(variant, 16, true, false, n - 1),
      MakeLayer(variant, 32, true, false, n - 2),
      NewBlock(variant, 64, false, true),
      PoolKernel,
      OutDim)
  }

  /** All blocks in forward order. */
  function AllBlocks(net: Network): seq<Block> {
    net.stage1 + net.stage2 + net.stage3 + [net.stage4]
  }

  /** A stage entered at `inplanes` that leaves at `outplanes`: well-formed
      chained blocks, of which only the first increases dimension, and only
      when `increasing`. */
  predicate StageWired(blocks: seq<Block>, inplanes: nat, outplanes: nat, increasing: bool) {
    && AllWellFormed(blocks)
    && Chained(blocks, inplanes)
    && StageOut(blocks, inplanes) == outplanes
    && (increasing ==> |blocks| >= 1 && blocks[0].increaseDim)
    && (forall k :: (if increasing then 1 else 0) <= k < |blocks| ==> !blocks[k].increaseDim)
  }

  /** The stem maps the input channels to 16 at stride 1. */
  predicate StemWired(net: Network, channels: nat) {
    && net.stemConv.inChannels == channels
    && net.stemConv.outChannels == StemWidth && net.stemConv.stride == 1
    && net.stemBn.features == StemWidth
  }

  /** The widths chain 16 -> 16 -> 32 -> 64 -> 64 through the four stages,
      stages 2 and 3 each opening with a dimension increase. */
  predicate StagesWired(net: Network) {
    && StageWired(net.stage1, 16, 16, false)
    && StageWired(net.stage2, 16, 32, true)
    && StageWired(net.stage3, 32, 64, true)
    && StageWired([net.stage4], 64, OutDim, false)
  }

  /** Structural invariant of a network: stem and stages wired as above, an
      8x8 average pool and 64 output features. */
  predicate WellWired(net: Network, channels: nat) {
    StemWired(net, channels) && StagesWired(net) && net.poolKernel == PoolKernel && net.outDim == OutDim
  }

  lemma {:induction false} ChainedAppend(a: seq<Block>, b: seq<Block>, inplanes: nat)
    requires Chained(a, inplanes) && Chained(b, StageOut(a, inplanes))
    ensures Chained(a + b, inplanes)
    ensures StageOut(a + b, inplanes) == StageOut(b, StageOut(a, inplanes))
  {
    var ab := a + b;
    forall k | 0 <= k < |ab| - 1
      ensures ab[k + 1].InPlanes() == ab[k].OutPlanes()
    {
      if k + 1 < |a| {
        assert ab[k + 1] == a[k + 1] && ab[k] == a[k];
      } else if k + 1 == |a| {
        assert ab[k + 1] == b[0] && ab[k] == a[k];
      } else {
        assert ab[k + 1] == b[k + 1 - |a|] && ab[k] == b[k - |a|];
      }
    }
  }

  /** The built network is well wired: stage widths 16, 32, 64, 64 with every
      block's input width equal to the previous block's output width, from the
      stem's 16 to the feature width 64. */
  lemma BuildWellWired(variant: Variant, channels: nat, n: int)
    ensures WellWired(Build(variant, channels, n), channels)
    ensures AllWellFormed(AllBlocks(Build(variant, channels, n)))
    ensures Chained(AllBlocks(Build(variant, channels, n)), StemWidth)
    ensures StageOut(AllBlocks(Build(variant, channels, n)), StemWidth) == OutDim
  {
    var net := Build(variant, channels, n);
    StageLayout(variant, 16, false, false, n);
    StageLayout(variant, 16, true, false, n - 1);
    StageLayout(variant, 32, true, false, n - 2);
    WiredBlocks(net, channels);
  }

  /** A well-wired network's blocks, taken in forward order, form one chain
      from the stem's 16 channels to the 64 of the feature head. */
  lemma WiredBlocks(net: Network, channels: nat)
    requires WellWired(net, channels)
    ensures AllWellFormed(AllBlocks(net))
    ensures Chained(AllBlocks(net), StemWidth)
    ensures StageOut(AllBlocks(net), StemWidth) == OutDim
  {
    var all := AllBlocks(net);
    forall k | 0 <= k < |all|
      ensures WellFormed(all[k])
    {
      if k < |net.stage1| {
        assert all[k] == net.stage1[k];
      } else if k < |net.stage1| + |net.stage2| {
        assert all[k] == net.stage2[k - |net.stage1|];
      } else if k < |net.stage1| + |net.stage2| + |net.stage3| {
        assert all[k] == net.stage3[k - |net.stage1| - |net.stage2|];
      } else {
        assert all[k] == net.stage4;
      }
    }
    ChainedAppend(net.stage1, net.stage2, 16);
    ChainedAppend(net.stage1 + net.stage2, net.stage3, 16);
    ChainedAppend(net.stage1 + net.stage2 + net.stage3, [net.stage4], 16);
  }

  /** Every block of a built network is of the selected variant. */
  lemma BuildVariant(variant: Variant, channels: nat, n: int)
    ensures forall b :: b in AllBlocks(Build(variant, channels, n)) ==> b.variant == variant
  {
    StageLayout(variant, 16, false, false, n);
    StageLayout(variant, 16, true, false, n - 1);
    StageLayout(variant, 32, true, false, n - 2);
  }

  /** Stage sizes: `max(n, 0)`, `1 + max(n - 1, 0)`, `1 + max(n - 2, 0)` and 1;
      for `n >= 2` that is n, n, n - 1 and 1 blocks. */
  lemma StageSizes(variant: Variant, channels: nat, n: int)
    ensures var net := Build(variant, channels, n);
      && |net.stage1| == MaxZero(n)
      && |net.stage2| == 1 + MaxZero(n - 1)
      && |net.stage3| == 1 + MaxZero(n - 2)
      && (n >= 2 ==> |net.stage1| == n && |net.stage2| == n && |net.stage3| == n - 1)
      && |AllBlocks(net)| == MaxZero(n) + MaxZero(n - 1) + MaxZero(n - 2) + 3
  {
    StageLayout(variant, 16, false, false, n);
    StageLayout(variant, 16, true, false, n - 1);
    StageLayout(variant, 32, true, false, n - 2);
  }

  // ---------------------------------------------------------------------------
  // Enumeration of the module tree.

  /** One node of the module tree, tagged with its kind. */
  datatype Module =
    | ResNetModule
    | ConvModule(conv: Conv)
    | NormModule(norm: BatchNorm)
    | SequentialModule
    | BlockModule(variant: Variant)
    | DownsampleModule(downsample: DownsampleStride)
    | PoolModule(kernel: nat)

  /** A block and its sub-modules in registration order: `conv_a, bn_a, conv_b,
      bn_b` for the post-activation block, `bn_a, conv_a, bn_b, conv_b` for the
      pre-activation block, then the downsampler when there is one. The `pad`
      lambda is not a module. */
  function BlockModules(b: Block): seq<Module> {
    [BlockModule(b.variant)]
    + (match b.variant
       case PostActivation => [ConvModule(b.convA), NormModule(b.bnA), ConvModule(b.convB), NormModule(b.bnB)]
       case PreActivation => [NormModule(b.bnA), ConvModule(b.convA), NormModule(b.bnB), ConvModule(b.convB)])
    + (if b.downsample.Some? then [DownsampleModule(b.downsample.value)] else [])
  }

  function BlocksModules(blocks: seq<Block>): seq<Module> {
    if |blocks| == 0 then [] else BlocksModules(blocks[..|blocks| - 1]) + BlockModules(blocks[|blocks| - 1])
  }

  /** `nn.Sequential` and its blocks. */
  function StageModules(blocks: seq<Block>): seq<Module> {
    [SequentialModule] + BlocksModules(blocks)
  }

  /** `self.modules()`: pre-order, children in registration order. */
  function Modules(net: Network): seq<Module> {
    [ResNetModule, ConvModule(net.stemConv), NormModule(net.stemBn)]
    + StageModules(net.stage1) + StageModules(net.stage2) + StageModules(net.stage3)
    + BlockModules(net.stage4)
    + [PoolModule(net.poolKernel)]
  }

  /** A module is enumerated for a sequence of blocks exactly when it is
      enumerated for one of them. */
  lemma BlocksModulesContents(blocks: seq<Block>, m: Module)
    ensures m in BlocksModules(blocks) <==> exists k :: 0 <= k < |blocks| && m in BlockModules(blocks[k])
  {
    if m in BlocksModules(blocks) {
      BlocksModulesSound(blocks, m);
    }
    if exists k :: 0 <= k < |blocks| && m in BlockModules(blocks[k]) {
      var k :| 0 <= k < |blocks| && m in BlockModules(blocks[k]);
      BlocksModulesComplete(blocks, k, m);
    }
  }

  lemma {:induction false} BlocksModulesSound(blocks: seq<Block>, m: Module)
    requires m in BlocksModules(blocks)
    ensures exists k :: 0 <= k < |blocks| && m in BlockModules(blocks[k])
  {
    var init := blocks[..|blocks| - 1];
    var last := |blocks| - 1;
    assert BlocksModules(blocks) == BlocksModules(init) + BlockModules(blocks[last]);
    if m in BlocksModules(init) {
      BlocksModulesSound(init, m);
      var k :| 0 <= k < |init| && m in BlockModules(init[k]);
      assert blocks[k] == init[k];
    } else {
      assert m in BlockModules(blocks[last]);
    }
  }

  lemma {:induction false} BlocksModulesComplete(blocks: seq<Block>, k: nat, m: Module)
    requires k < |blocks| && m in BlockModules(blocks[k])
    ensures m in BlocksModules(blocks)
  {
    var init := blocks[..|blocks| - 1];
    assert BlocksModules(blocks) == BlocksModules(init) + BlockModules(blocks[|blocks| - 1]);
    if k < |init| {
      assert init[k] == blocks[k];
      BlocksModulesComplete(init, k, m);
    }
  }
}

=== FILE: blocks.dfy ===
/** Forward dataflow of the two residual block variants:
    `y = shortcut(x) + main(x)`, where the shortcut is the identity or, in a
    dimension-increasing block, the stride slice followed by zero-channel
    padding. Each layer fails (None) where PyTorch would raise: a channel
    count that does not match the layer, or an input too small for the kernel. */
module Blocks {
  import opened Wrappers
  import opened Shapes
  import opened FeatureMaps
  import opened Layers

  /** The opaque numerics of one block's four layers. */
  datatype BlockOps = BlockOps(convA: LayerFn, normA: LayerFn, convB: LayerFn, normB: LayerFn)

  /** A 3x3, padding-1 convolution layer applied to `x`; `f` gives its values. */
  function ConvForward(conv: Conv, f: LayerFn, x: FeatureMap): (r: Option<FeatureMap>)
    ensures r.Some? <==> (x.shape.channels == conv.inChannels && conv.stride >= 1
                          && x.shape.height >= 1 && x.shape.width >= 1)
    ensures r.Some? ==> (r.value.shape.batch == x.shape.batch
                         && r.value.shape.channels == conv.outChannels)
  {
    if x.shape.channels != conv.inChannels || conv.stride < 1
      || x.shape.height + 2 * Padding < Kernel || x.shape.width + 2 * Padding < Kernel
    then
      None
    else
      Some(FeatureMap(
        Shape(x.shape.batch, conv.outChannels,
          ConvExtent(x.shape.height, conv.stride), ConvExtent(x.shape.width, conv.stride)),
        f(x)))
  }

  /** A batch normalisation layer: the opaque normalisation `f` followed by the
      affine map with the layer's scale and shift. */
  function NormForward(bn: BatchNorm, f: LayerFn, x: FeatureMap): (r: Option<FeatureMap>)
    ensures r.Some? <==> x.shape.channels == bn.features
    ensures r.Some? ==> r.value.shape == x.shape
  {
    if x.shape.channels != bn.features then None
    else Some(FeatureMap(x.shape, Affine(bn.gamma, bn.beta, f(x))))
  }

  /** The shortcut path; it branches on the `increase_dim` flag, as `forward` does. */
  function Shortcut(b: Block, x: FeatureMap): FeatureMap {
    if b.increaseDim then PadZeros(Downsample(x)) else x
  }

  /** The residual branch. In the pre-activation variant `bn_a` and its ReLU are
      applied to `x` and the result is thrown away: `conv_a` consumes the raw
      input. The discarded normalisation still rejects a wrong channel count. */
  function MainPath(b: Block, ops: BlockOps, x: FeatureMap): Option<FeatureMap> {
    match b.variant
    case PostActivation =>
      var y :- ConvForward(b.convA, ops.convA, x);
      var y :- NormForward(b.bnA, ops.normA, y);
      var y := Relu(y);
      var y :- ConvForward(b.convB, ops.convB, y);
      NormForward(b.bnB, ops.normB, y)
    case PreActivation =>
      var discarded :- NormForward(b.bnA, ops.normA, x);
      var y :- ConvForward(b.convA, ops.convA, x);
      var y :- NormForward(b.bnB, ops.normB, y);
      var y := Relu(y);
      ConvForward(b.convB, ops.convB, y)
  }

  /** `ResidualBlock.forward` / `PreActResidualBlock.forward`: `y = x + y`. */
  function BlockForward(b: Block, ops: BlockOps, x: FeatureMap): Option<FeatureMap> {
    var y :- MainPath(b, ops, x);
    Add(Shortcut(b, x), y)
  }

  /** The conditions under which a well-formed block accepts its input. */
  predicate Accepts(b: Block, s: Shape) {
    s.channels == b.InPlanes() && s.height >= 1 && s.width >= 1
  }

  /** The shape a well-formed block produces: channels doubled and each spatial
      extent halved, rounding up, when the block increases dimension. */
  function OutShape(b: Block, s: Shape): Shape {
    if b.increaseDim then Shape(s.batch, 2 * s.channels, (s.height + 1) / 2, (s.width + 1) / 2)
    else s
  }

  /** The shortcut of a dimension-increasing block has `2 * inplanes` channels
      and `ceil(h / 2)` rows and columns; otherwise it is the input itself. */
  lemma ShortcutShape(b: Block, x: FeatureMap)
    ensures Shortcut(b, x).shape == OutShape(b, x.shape)
  {
  }

  /** The residual branch of a well-formed block succeeds exactly when the input
      has the block's input width and a non-empty spatial extent, and then it
      has the same shape as the shortcut. */
  lemma MainPathMatchesShortcut(b: Block, ops: BlockOps, x: FeatureMap)
    requires WellFormed(b)
    ensures MainPath(b, ops, x).Some? <==> Accepts(b, x.shape)
    ensures MainPath(b, ops, x).Some? ==> MainPath(b, ops, x).value.shape == Shortcut(b, x).shape
  {
    if Accepts(b, x.shape) {
      var s := x.shape;
      if b.increaseDim {
        StrideTwoMatchesSlice(s.height);
        StrideTwoMatchesSlice(s.width);
        StrideOnePreserves(ConvExtent(s.height, 2));
        StrideOnePreserves(ConvExtent(s.width, 2));
      } else {
        StrideOnePreserves(s.height);
        StrideOnePreserves(s.width);
      }
    }
  }

  /** A well-formed block maps an accepted input of shape (N, C, h, w) to
      (N, C, h, w) or, when it increases dimension, to
      (N, 2C, ceil(h/2), ceil(w/2)); any other input fails. */
  lemma BlockShape(b: Block, ops: BlockOps, x: FeatureMap)
    requires WellFormed(b)
    ensures BlockForward(b, ops, x).Some? <==> Accepts(b, x.shape)
    ensures BlockForward(b, ops, x).Some? ==> BlockForward(b, ops, x).value.shape == OutShape(b, x.shape)
    ensures BlockForward(b, ops, x).Some? ==> OutShape(b, x.shape).channels == b.OutPlanes()
  {
    MainPathMatchesShortcut(b, ops, x);
  }

  /** With `bn_b`'s scale and shift both zero, a post-activation block outputs
      exactly its shortcut: the residual branch contributes `0 * f + 0`. */
  lemma ZeroResidualIsShortcut(b: Block, ops: BlockOps, x: FeatureMap)
    requires WellFormed(b) && b.variant == PostActivation
    requires b.bnB.gamma == 0.0 && b.bnB.beta == 0.0
    requires Accepts(b, x.shape)
    ensures BlockForward(b, ops, x).Some?
    ensures BlockForward(b, ops, x).value.shape == Shortcut(b, x).shape
    ensures forall n, c, i, j :: BlockForward(b, ops, x).value.at(n, c, i, j) == Shortcut(b, x).at(n, c, i, j)
  {
    MainPathMatchesShortcut(b, ops, x);
    var y := MainPath(b, ops, x).value;
    assert forall n, c, i, j :: y.at(n, c, i, j) == 0.0;
  }

  /** The pre-activation block's output does not depend on `bn_a`'s scale and
      shift nor on its normalisation: that branch is computed and discarded. */
  lemma PreActDiscardsFirstNorm(b: Block, ops: BlockOps, x: FeatureMap, gamma: real, beta: real, normA: LayerFn)
    requires b.variant == PreActivation
    ensures BlockForward(b, ops, x)
         == BlockForward(b.(bnA := b.bnA.(gamma := gamma, beta := beta)), ops.(normA := normA), x)
  {
  }
}

=== FILE: decimal.dfy ===
/** Python's `str` on integers and `str.rjust`, used to format the task-window
    labels of the accuracy report, together with a parser that inverts them. */
module Decimal {

  predicate IsDigit(ch: char) {
    '0' <= ch <= '9'
  }

  predicate AllDigits(s: string) {
    forall k :: 0 <= k < |s| ==> IsDigit(s[k])
  }

  function DigitChar(d: nat): (ch: char)
    requires d < 10
    ensures IsDigit(ch)
  {
    ('0' as int + d) as char
  }

  function DigitValue(ch: char): nat
    requires IsDigit(ch)
  {
    ch as int - '0' as int
  }

  /** `str(n)` for a non-negative integer: decimal digits without leading zeros. */
  function NatToString(n: nat): (s: string)
    ensures |s| >= 1 && AllDigits(s)
    ensures |s| > 1 ==> s[0] != '0'
  {
    if n < 10 then [DigitChar(n)] else NatToString(n / 10) + [DigitChar(n % 10)]
  }

  /** `str(i)` for any integer: a minus sign in front of the digits of a negative number. */
  function IntToString(i: int): (s: string)
    ensures |s| >= 1
    ensures i >= 0 ==> AllDigits(s)
    ensures i < 0 ==> |s| >= 2 && s[0] == '-' && AllDigits(s[1..])
  {
    if i < 0 then "-" + NatToString(-i) else NatToString(i)
  }

  /** `s.rjust(width, fill)`: left-pads with `fill` up to `width`, never truncates. */
  function RJust(s: string, width: int, fill: char): (r: string)
    ensures |r| == if |s| >= width then |s| else width
    ensures r[|r| - |s|..] == s
    ensures forall k :: 0 <= k < |r| - |s| ==> r[k] == fill
  {
    if |s| >= width then s else seq(width - |s|, _ => fill) + s
  }

  /** Value of a string of decimal digits; leading zeros are allowed. */
  function ParseDigits(s: string): nat
    requires AllDigits(s)
  {
    if |s| == 0 then 0 else 10 * ParseDigits(s[..|s| - 1]) + DigitValue(s[|s| - 1])
  }

  /** Inverse of `IntToString`, also accepting leading zeros after the sign. */
  predicate IsNumeral(s: string) {
    (|s| > 0 && s[0] == '-' && AllDigits(s[1..])) || AllDigits(s)
  }

  function ParseInt(s: string): int
    requires IsNumeral(s)
  {
    if |s| > 0 && s[0] == '-' then -(ParseDigits(s[1..]) as int) else ParseDigits(s)
  }

  lemma {:induction false} NatRoundTrip(n: nat)
    ensures ParseDigits(NatToString(n)) == n
  {
    if n >= 10 {
      var s := NatToString(n);
      assert s[..|s| - 1] == NatToString(n / 10);
      NatRoundTrip(n / 10);
    }
  }

  lemma {:induction false} LeadingZeros(z: nat, s: string)
    requires AllDigits(s)
    ensures AllDigits(seq(z, _ => '0') + s)
    ensures ParseDigits(seq(z, _ => '0') + s) == ParseDigits(s)
  {
    var t := seq(z, _ => '0') + s;
    if |s| == 0 {
      assert t == seq(z, _ => '0');
      ZerosParseToZero(z);
    } else {
      var s' := s[..|s| - 1];
      assert t[..|t| - 1] == seq(z, _ => '0') + s';
      LeadingZeros(z, s');
    }
  }

  lemma {:induction false} ZerosParseToZero(z: nat)
    ensures AllDigits(seq(z, _ => '0'))
    ensures ParseDigits(seq(z, _ => '0')) == 0
  {
    if z > 0 {
      assert seq(z, _ => '0')[..z - 1] == seq(z - 1, _ => '0');
      ZerosParseToZero(z - 1);
    }
  }

  /** Zero-padding to width 2 keeps the number recoverable: `rjust` never
      truncates, and a negative number is already two characters wide. */
  lemma PaddedRoundTrip(i: int)
    ensures |RJust(IntToString(i), 2, '0')| >= 2
    ensures IsNumeral(RJust(IntToString(i), 2, '0'))
    ensures ParseInt(RJust(IntToString(i), 2, '0')) == i
  {
    if i < 0 {
      NegativeRoundTrip(i);
    } else {
      NonNegativeRoundTrip(i);
    }
  }

  lemma NegativeRoundTrip(i: int)
    requires i < 0
    ensures RJust(IntToString(i), 2, '0') == IntToString(i)
    ensures IsNumeral(IntToString(i)) && ParseInt(IntToString(i)) == i
  {
    var d := NatToString(-i);
    var s := IntToString(i);
    assert s[1..] == d;
    NatRoundTrip(-i);
  }

  lemma NonNegativeRoundTrip(i: nat)
    ensures AllDigits(RJust(IntToString(i), 2, '0'))
    ensures ParseDigits(RJust(IntToString(i), 2, '0')) == i
  {
    var s := NatToString(i);
    var p := RJust(s, 2, '0');
    var z := |p| - |s|;
    assert p == seq(z, _ => '0') + s;
    LeadingZeros(z, s);
    NatRoundTrip(i);
  }

  /** A padded number is a sign or digit followed by digits only. */
  lemma PaddedSign(i: int)
    ensures var p := RJust(IntToString(i), 2, '0');
      |p| >= 2 && (p[0] == '-' || IsDigit(p[0])) && forall j :: 1 <= j < |p| ==> IsDigit(p[j])
  {
    var s := IntToString(i);
    var p := RJust(s, 2, '0');
    if i < 0 {
      assert p == s;
      assert forall j :: 1 <= j < |p| ==> p[j] == s[1..][j - 1];
    } else {
      NonNegativeRoundTrip(i);
    }
  }
}

=== FILE: feature_maps.dfy ===
/** Feature maps as abstract dataflow values: a shape and the real value at
    every (example, channel, row, column) position. Only the operations whose
    values the network code spells out (ReLU, the stride slice, zero-channel
    padding, addition, the affine step of batch normalisation) are defined;
    convolution, normalisation statistics and average pooling are opaque
    `LayerFn` parameters. Values at positions outside the shape carry no meaning. */
module FeatureMaps {
  import opened Wrappers
  import opened Shapes

  type Values = (int, int, int, int) -> real

  datatype FeatureMap = FeatureMap(shape: Shape, at: Values)

  /** The opaque numeric part of one layer: the values it computes from its input. */
  type LayerFn = FeatureMap -> Values

  /** `F.relu`: clamps at zero. */
  function Relu(x: FeatureMap): (r: FeatureMap)
    ensures r.shape == x.shape
    ensures forall n, c, i, j :: r.at(n, c, i, j) >= 0.0
    ensures forall n, c, i, j :: x.at(n, c, i, j) >= 0.0 ==> r.at(n, c, i, j) == x.at(n, c, i, j)
    ensures forall n, c, i, j :: x.at(n, c, i, j) <= 0.0 ==> r.at(n, c, i, j) == 0.0
  {
    FeatureMap(x.shape, (n, c, i, j) => if x.at(n, c, i, j) > 0.0 then x.at(n, c, i, j) else 0.0)
  }

  /** `DownsampleStride.forward`: `x[..., ::2, ::2]`, every second row and column
      starting from the first; batch and channels unchanged. */
  function Downsample(x: FeatureMap): (r: FeatureMap)
    ensures r.shape.batch == x.shape.batch && r.shape.channels == x.shape.channels
    ensures 2 * r.shape.height - 1 <= x.shape.height <= 2 * r.shape.height
    ensures 2 * r.shape.width - 1 <= x.shape.width <= 2 * r.shape.width
    ensures forall n, c, i, j :: r.at(n, c, i, j) == x.at(n, c, 2 * i, 2 * j)
  {
    FeatureMap(
      Shape(x.shape.batch, x.shape.channels, SliceExtent(x.shape.height), SliceExtent(x.shape.width)),
      (n, c, i, j) => x.at(n, c, 2 * i, 2 * j))
  }

  /** The block's `pad`: `torch.cat((x, x.mul(0)), 1)`, the input followed by as
      many channels of zeros. */
  function PadZeros(x: FeatureMap): (r: FeatureMap)
    ensures r.shape == x.shape.(channels := 2 * x.shape.channels)
    ensures forall n, c, i, j :: 0 <= c < x.shape.channels ==> r.at(n, c, i, j) == x.at(n, c, i, j)
    ensures forall n, c, i, j :: x.shape.channels <= c ==> r.at(n, c, i, j) == 0.0
  {
    var channels := x.shape.channels;
    FeatureMap(
      x.shape.(channels := 2 * channels),
      (n, c, i, j) => if c < channels then x.at(n, c, i, j) else 0.0)
  }

  /** Element-wise `x + y`. Broadcasting between different shapes is not
      modelled and reads as a failure. */
  function Add(x: FeatureMap, y: FeatureMap): (r: Option<FeatureMap>)
    ensures r.Some? <==> x.shape == y.shape
    ensures r.Some? ==> r.value.shape == x.shape
    ensures r.Some? ==> forall n, c, i, j :: r.value.at(n, c, i, j) == x.at(n, c, i, j) + y.at(n, c, i, j)
  {
    if x.shape == y.shape then
      Some(FeatureMap(x.shape, (n, c, i, j) => x.at(n, c, i, j) + y.at(n, c, i, j)))
    else
      None
  }

  /** The affine step `gamma * f(x) + beta` of batch normalisation applied to the
      normalised values `v`; scale and shift are the same for every channel. */
  function Affine(gamma: real, beta: real, v: Values): (r: Values)
    ensures gamma == 0.0 ==> forall n, c, i, j :: r(n, c, i, j) == beta
  {
    (n, c, i, j) => gamma * v(n, c, i, j) + beta
  }
}

=== FILE: initialisation.dfy ===
/** The initialisation pass at the end of `CifarResNet.__init__`: a first walk
    over `self.modules()` that dispatches on each module's kind (Kaiming
    initialisation for convolutions, scale 1 and shift 0 for batch
    normalisations), and, with `zero_residual`, a second walk that sets the
    scale of `bn_b` to 0 in every post-activation block only. */
module Initialisation {
  import opened Layers
  import opened Architecture

  function InitConv(c: Conv): Conv {
    c.(init := KaimingNormalFanOut)
  }

  function InitNorm(bn: BatchNorm): BatchNorm {
    bn.(gamma := 1.0, beta := 0.0)
  }

  /** The first walk's visitor on one module, by kind; other kinds are untouched. */
  function Visit(m: Module): Module {
    match m
    case ConvModule(c) => ConvModule(InitConv(c))
    case NormModule(bn) => NormModule(InitNorm(bn))
    case _ => m
  }

  /** The visitor applied to every module of an enumeration. */
  function VisitAll(ms: seq<Module>): (r: seq<Module>)
    ensures |r| == |ms|
  {
    seq(|ms|, k requires 0 <= k < |ms| => Visit(ms[k]))
  }

  function InitBlock(b: Block): Block {
    b.(convA := InitConv(b.convA), bnA := InitNorm(b.bnA), convB := InitConv(b.convB), bnB := InitNorm(b.bnB))
  }

  function InitBlocks(blocks: seq<Block>): (r: seq<Block>)
    ensures |r| == |blocks|
  {
    seq(|blocks|, k requires 0 <= k < |blocks| => InitBlock(blocks[k]))
  }

  /** The first walk, applied to the structure. */
  function FirstPass(net: Network): Network {
    net.(
      stemConv := InitConv(net.stemConv),
      stemBn := InitNorm(net.stemBn),
      stage1 := InitBlocks(net.stage1),
      stage2 := InitBlocks(net.stage2),
      stage3 := InitBlocks(net.stage3),
      stage4 := InitBlock(net.stage4))
  }

  /** `isinstance(m, ResidualBlock)` holds only for the post-activation variant;
      `PreActResidualBlock` is not a subclass of it. */
  function ZeroBlock(b: Block): Block {
    if b.variant == PostActivation then b.(bnB := b.bnB.(gamma := 0.0)) else b
  }

  function ZeroBlocks(blocks: seq<Block>): (r: seq<Block>)
    ensures |r| == |blocks|
  {
    seq(|blocks|, k requires 0 <= k < |blocks| => ZeroBlock(blocks[k]))
  }

  /** The second walk, run only with `zero_residual`. */
  function ZeroResidualPass(net: Network): Network {
    net.(
      stage1 := ZeroBlocks(net.stage1),
      stage2 := ZeroBlocks(net.stage2),
      stage3 := ZeroBlocks(net.stage3),
      stage4 := ZeroBlock(net.stage4))
  }

  function Initialise(net: Network, zeroResidual: bool): Network {
    var first := FirstPass(net);
    if zeroResidual then ZeroResidualPass(first) else first
  }

  // ---------------------------------------------------------------------------

  lemma VisitAllAppend(a: seq<Module>, b: seq<Module>)
    ensures VisitAll(a + b) == VisitAll(a) + VisitAll(b)
  {
  }

  lemma BlockVisited(b: Block)
    ensures BlockModules(InitBlock(b)) == VisitAll(BlockModules(b))
  {
  }

  lemma {:induction false} BlocksVisited(blocks: seq<Block>)
    ensures BlocksModules(InitBlocks(blocks)) == VisitAll(BlocksModules(blocks))
  {
    if |blocks| > 0 {
      var init := blocks[..|blocks| - 1];
      assert InitBlocks(blocks)[..|blocks| - 1] == InitBlocks(init);
      BlocksVisited(init);
      BlockVisited(blocks[|blocks| - 1]);
      VisitAllAppend(BlocksModules(init), BlockModules(blocks[|blocks| - 1]));
    }
  }

  lemma StageVisited(blocks: seq<Block>)
    ensures StageModules(InitBlocks(blocks)) == VisitAll(StageModules(blocks))
  {
    BlocksVisited(blocks);
    VisitAllAppend([SequentialModule], BlocksModules(blocks));
  }

  /** The structural first walk is the kind-dispatching visitor applied to
      every module that `modules()` enumerates, in the same order. */
  lemma FirstPassIsVisitor(net: Network)
    ensures Modules(FirstPass(net)) == VisitAll(Modules(net))
  {
    var net' := FirstPass(net);
    StageVisited(net.stage1);
    StageVisited(net.stage2);
    StageVisited(net.stage3);
    BlockVisited(net.stage4);
    var a := [ResNetModule, ConvModule(net.stemConv), NormModule(net.stemBn)];
    var s1, s2, s3 := StageModules(net.stage1), StageModules(net.stage2), StageModules(net.stage3);
    var b4, p := BlockModules(net.stage4), [PoolModule(net.poolKernel)];
    assert VisitAll(a) == [ResNetModule, ConvModule(net'.stemConv), NormModule(net'.stemBn)];
    assert VisitAll(p) == p;
    VisitAllAppend(a + s1 + s2 + s3 + b4, p);
    VisitAllAppend(a + s1 + s2 + s3, b4);
    VisitAllAppend(a + s1 + s2, s3);
    VisitAllAppend(a + s1, s2);
    VisitAllAppend(a, s1);
  }

  /** Two blocks that differ at most in parameter values. */
  predicate SameWiring(b: Block, b': Block) {
    && b'.variant == b.variant && b'.increaseDim == b.increaseDim && b'.last == b.last
    && b'.convA.(init := TorchDefault) == b.convA.(init := TorchDefault)
    && b'.convB.(init := TorchDefault) == b.convB.(init := TorchDefault)
    && b'.bnA.features == b.bnA.features && b'.bnB.features == b.bnB.features
    && b'.downsample == b.downsample
  }

  predicate SameWiringAll(bs: seq<Block>, bs': seq<Block>) {
    |bs'| == |bs| && forall k :: 0 <= k < |bs| ==> SameWiring(bs[k], bs'[k])
  }

  lemma StageWiringKept(bs: seq<Block>, bs': seq<Block>, inplanes: nat, outplanes: nat, increasing: bool)
    requires StageWired(bs, inplanes, outplanes, increasing) && SameWiringAll(bs, bs')
    ensures StageWired(bs', inplanes, outplanes, increasing)
  {
    assert forall k :: 0 <= k < |bs| ==> bs'[k].InPlanes() == bs[k].InPlanes() && bs'[k].OutPlanes() == bs[k].OutPlanes();
  }

  lemma PassesKeepWiring(bs: seq<Block>)
    ensures SameWiringAll(bs, InitBlocks(bs))
    ensures SameWiringAll(bs, ZeroBlocks(InitBlocks(bs)))
  {
  }

  lemma InitBlocksAppend(a: seq<Block>, b: seq<Block>)
    ensures InitBlocks(a + b) == InitBlocks(a) + InitBlocks(b)
    ensures ZeroBlocks(a + b) == ZeroBlocks(a) + ZeroBlocks(b)
  {
  }

  /** Initialisation keeps the number of blocks in every stage. */
  lemma InitialiseKeepsStageSizes(net: Network, zeroResidual: bool)
    ensures var r := Initialise(net, zeroResidual);
      |r.stage1| == |net.stage1| && |r.stage2| == |net.stage2| && |r.stage3| == |net.stage3|
  {
  }

  /** Block by block, the initialised network differs from the built one in
      parameter values only. */
  lemma InitialiseKeepsBlocks(net: Network, zeroResidual: bool)
    ensures SameWiringAll(AllBlocks(net), AllBlocks(Initialise(net, zeroResidual)))
  {
    var all := AllBlocks(net);
    var s123 := net.stage1 + net.stage2 + net.stage3;
    InitBlocksAppend(net.stage1, net.stage2);
    InitBlocksAppend(net.stage1 + net.stage2, net.stage3);
    InitBlocksAppend(s123, [net.stage4]);
    var f := FirstPass(net);
    ZeroBlocksAppend3(f);
    assert AllBlocks(f) == InitBlocks(all);
    PassesKeepWiring(all);
  }

  lemma ZeroBlocksAppend3(f: Network)
    ensures AllBlocks(ZeroResidualPass(f)) == ZeroBlocks(AllBlocks(f))
  {
    InitBlocksAppend(f.stage1, f.stage2);
    InitBlocksAppend(f.stage1 + f.stage2, f.stage3);
    InitBlocksAppend(f.stage1 + f.stage2 + f.stage3, [f.stage4]);
  }

  /** The initialisation changes parameters only: the wiring invariant is kept. */
  lemma InitialisePreservesWiring(net: Network, channels: nat, zeroResidual: bool)
    requires WellWired(net, channels)
    ensures WellWired(Initialise(net, zeroResidual), channels)
  {
    var r := Initialise(net, zeroResidual);
    PassesKeepWiring(net.stage1);
    PassesKeepWiring(net.stage2);
    PassesKeepWiring(net.stage3);
    PassesKeepWiring([net.stage4]);
    assert [r.stage4] == if zeroResidual then ZeroBlocks(InitBlocks([net.stage4])) else InitBlocks([net.stage4]);
    StageWiringKept(net.stage1, r.stage1, 16, 16, false);
    StageWiringKept(net.stage2, r.stage2, 16, 32, true);
    StageWiringKept(net.stage3, r.stage3, 32, 64, true);
    StageWiringKept([net.stage4], [r.stage4], 64, OutDim, false);
  }

  // ---------------------------------------------------------------------------
  // The state after initialisation.

  /** The parameters a block ends up with: Kaiming-initialised convolutions,
      batch normalisations with scale 1 and shift 0, except that `bn_b` of a
      post-activation block has scale 0 under `zero_residual`. */
  predicate BlockInitialised(b: Block, zeroResidual: bool) {
    && b.convA.init == KaimingNormalFanOut && b.convB.init == KaimingNormalFanOut
    && b.bnA.gamma == 1.0 && b.bnA.beta == 0.0
    && b.bnB.beta == 0.0
    && b.bnB.gamma == if zeroResidual && b.variant == PostActivation then 0.0 else 1.0
  }

  /** What the first walk promises of every enumerated module, and the second
      walk's only exception: a batch normalisation with scale 0. */
  predicate ModuleInitialised(m: Module, zeroResidual: bool) {
    && (m.ConvModule? ==> m.conv.init == KaimingNormalFanOut)
    && (m.NormModule? ==> m.norm.beta == 0.0 && (m.norm.gamma == 1.0 || (zeroResidual && m.norm.gamma == 0.0)))
  }

  /** Every block of the initialised network carries the expected parameters,
      and so do the stem's convolution and normalisation. */
  lemma InitialisedBlocks(net: Network, zeroResidual: bool)
    ensures var r := Initialise(net, zeroResidual);
      && r.stemConv.init == KaimingNormalFanOut
      && r.stemBn.gamma == 1.0 && r.stemBn.beta == 0.0
      && forall k :: 0 <= k < |AllBlocks(r)| ==> BlockInitialised(AllBlocks(r)[k], zeroResidual)
  {
    var r := Initialise(net, zeroResidual);
    var all := AllBlocks(r);
    forall k | 0 <= k < |all|
      ensures BlockInitialised(all[k], zeroResidual)
    {
      var n1, n2, n3 := |r.stage1|, |r.stage2|, |r.stage3|;
      if k < n1 {
        assert all[k] == r.stage1[k];
      } else if k < n1 + n2 {
        assert all[k] == r.stage2[k - n1];
      } else if k < n1 + n2 + n3 {
        assert all[k] == r.stage3[k - n1 - n2];
      } else {
        assert all[k] == r.stage4;
      }
    }
  }

  /** Pre-activation blocks are never zeroed: all their batch normalisations
      keep scale 1, whatever `zero_residual` says. */
  lemma PreActNeverZeroed(net: Network, zeroResidual: bool)
    ensures forall b :: b in AllBlocks(Initialise(net, zeroResidual)) ==>
      (b.variant == PreActivation ==> b.bnA.gamma == 1.0 && b.bnB.gamma == 1.0)
  {
    InitialisedBlocks(net, zeroResidual);
  }

  lemma BlockModulesInitialised(b: Block, zeroResidual: bool)
    requires BlockInitialised(b, zeroResidual)
    ensures forall m :: m in BlockModules(b) ==> ModuleInitialised(m, zeroResidual)
  {
  }

  lemma BlocksModulesInitialised(blocks: seq<Block>, zeroResidual: bool)
    requires forall k :: 0 <= k < |blocks| ==> BlockInitialised(blocks[k], zeroResidual)
    ensures forall m :: m in StageModules(blocks) ==> ModuleInitialised(m, zeroResidual)
  {
    forall m | m in BlocksModules(blocks)
      ensures ModuleInitialised(m, zeroResidual)
    {
      BlocksModulesContents(blocks, m);
      var k :| 0 <= k < |blocks| && m in BlockModules(blocks[k]);
      BlockModulesInitialised(blocks[k], zeroResidual);
    }
  }

  lemma StageBlocksInitialised(r: Network, zeroResidual: bool)
    requires forall k :: 0 <= k < |AllBlocks(r)| ==> BlockInitialised(AllBlocks(r)[k], zeroResidual)
    ensures forall k :: 0 <= k < |r.stage1| ==> BlockInitialised(r.stage1[k], zeroResidual)
    ensures forall k :: 0 <= k < |r.stage2| ==> BlockInitialised(r.stage2[k], zeroResidual)
    ensures forall k :: 0 <= k < |r.stage3| ==> BlockInitialised(r.stage3[k], zeroResidual)
    ensures BlockInitialised(r.stage4, zeroResidual)
  {
    var all := AllBlocks(r);
    var n1, n2, n3 := |r.stage1|, |r.stage2|, |r.stage3|;
    assert forall k :: 0 <= k < n1 ==> all[k] == r.stage1[k];
    assert forall k :: 0 <= k < n2 ==> all[n1 + k] == r.stage2[k];
    assert forall k :: 0 <= k < n3 ==> all[n1 + n2 + k] == r.stage3[k];
    assert all[n1 + n2 + n3] == r.stage4;
  }

  /** Walking `modules()` of the initialised network: every convolution is
      Kaiming-initialised and every batch normalisation has shift 0 and scale 1,
      or scale 0 only under `zero_residual`. */
  lemma InitialisedModules(net: Network, zeroResidual: bool)
    ensures forall m :: m in Modules(Initialise(net, zeroResidual)) ==> ModuleInitialised(m, zeroResidual)
  {
    var r := Initialise(net, zeroResidual);
    InitialisedBlocks(net, zeroResidual);
    StageBlocksInitialised(r, zeroResidual);
    BlocksModulesInitialised(r.stage1, zeroResidual);
    BlocksModulesInitialised(r.stage2, zeroResidual);
    BlocksModulesInitialised(r.stage3, zeroResidual);
    BlockModulesInitialised(r.stage4, zeroResidual);
  }
}

=== FILE: layers.dfy ===
/** The layers and the two residual block variants of the network, as
    configurations: which convolutions and batch normalisations a block owns,
    with which channel counts and strides, and the initialisation state of
    their parameters. */
module Layers {
  import opened Wrappers

  /** How a convolution's weights were last initialised: PyTorch's own default
      when the layer is created, or `kaiming_normal_(mode='fan_out',
      nonlinearity='relu')`. The sampled values are not modelled. */
  datatype ConvInit = TorchDefault | KaimingNormalFanOut

  /** `nn.Conv2d(inChannels, outChannels, kernel_size=3, stride, padding=1,
      bias=False)`; kernel and padding are the constants of `Shapes`. */
  datatype Conv = Conv(inChannels: nat, outChannels: nat, stride: nat, init: ConvInit)

  /** `nn.BatchNorm2d(features)` with its affine scale `gamma` (the layer's
      `weight`) and shift `beta` (its `bias`), each one value for all channels. */
  datatype BatchNorm = BatchNorm(features: nat, gamma: real, beta: real)

  /** `ResidualBlock` (post-activation) or `PreActResidualBlock`. */
  datatype Variant = PostActivation | PreActivation

  /** `DownsampleStride(n=2)`: stores `n` but always slices with step 2. */
  datatype DownsampleStride = DownsampleStride(n: int)

  datatype Block = Block(
    variant: Variant,
    increaseDim: bool,
    last: bool,
    convA: Conv,
    bnA: BatchNorm,
    convB: Conv,
    bnB: BatchNorm,
    downsample: Option<DownsampleStride>)
  {
    function InPlanes(): nat {
      convA.inChannels
    }

    function OutPlanes(): nat {
      convB.outChannels
    }
  }

  function NewConv(inChannels: nat, outChannels: nat, stride: nat): Conv {
    Conv(inChannels, outChannels, stride, TorchDefault)
  }

  /** PyTorch creates a batch normalisation with scale 1 and shift 0. */
  function NewBatchNorm(features: nat): BatchNorm {
    BatchNorm(features, 1.0, 0.0)
  }

  /** Internal consistency of a block: the wiring every block constructor
      produces, whatever its parameters were initialised to. In the
      pre-activation variant `bn_a` normalises the block input, in the
      post-activation variant the output of `conv_a`. */
  predicate WellFormed(b: Block) {
    && b.convA.outChannels == b.convB.inChannels == b.convB.outChannels == b.bnB.features
    && b.bnA.features == (if b.variant == PostActivation then b.convA.outChannels else b.convA.inChannels)
    && b.convA.stride == (if b.increaseDim then 2 else 1)
    && b.convB.stride == 1
    && b.convA.outChannels == (if b.increaseDim then 2 * b.convA.inChannels else b.convA.inChannels)
    && (b.downsample.Some? <==> b.increaseDim)
  }

  /** `ResidualBlock(inplanes, increase_dim, last)` or
      `PreActResidualBlock(inplanes, increase_dim, last)`. */
  function NewBlock(variant: Variant, inplanes: nat, increaseDim: bool, last: bool): (b: Block)
    ensures WellFormed(b)
    ensures b.variant == variant && b.increaseDim == increaseDim && b.last == last
    ensures b.InPlanes() == inplanes
    ensures b.convA.stride == 2 <==> increaseDim
    ensures b.OutPlanes() == if increaseDim then 2 * inplanes else inplanes
  {
    var firstStride := if increaseDim then 2 else 1;
    var planes := if increaseDim then inplanes * 2 else inplanes;
    Block(
      variant, increaseDim, last,
      NewConv(inplanes, planes, firstStride),
      NewBatchNorm(if variant == PostActivation then planes else inplanes),
      NewConv(planes, planes, 1),
      NewBatchNorm(planes),
      if increaseDim then Some(DownsampleStride(2)) else None)
  }
}

=== FILE: onehot.dfy ===
/** `to_onehot` of the evaluation helpers: one row per target, with a single 1
    in the target's column. Entries are the floats 0.0 and 1.0 of `to_onehot`,
    written here as the naturals 0 and 1. */
module OneHot {
  import opened Wrappers

  /** `torch.zeros` refuses a negative size; `scatter_` refuses an index
      outside `[0, n_classes)`. */
  datatype OneHotError = NegativeClassCount | TargetOutOfRange

  predicate TargetsInRange(targets: seq<int>, nClasses: int) {
    forall i :: 0 <= i < |targets| ==> 0 <= targets[i] < nClasses
  }

  function Row(target: int, nClasses: nat): seq<nat> {
    seq(nClasses, j => if j == target then 1 else 0)
  }

  function ToOnehot(targets: seq<int>, nClasses: int): (r: Result<seq<seq<nat>>, OneHotError>)
    ensures r.Ok? <==> nClasses >= 0 && TargetsInRange(targets, nClasses)
    ensures r == Err(NegativeClassCount) <==> nClasses < 0
    ensures r.Ok? ==> |r.value| == |targets|
    ensures r.Ok? ==> forall i :: 0 <= i < |targets| ==> |r.value[i]| == nClasses
  {
    if nClasses < 0 then Err(NegativeClassCount)
    else if !TargetsInRange(targets, nClasses) then Err(TargetOutOfRange)
    else Ok(seq(|targets|, i requires 0 <= i < |targets| => Row(targets[i], nClasses)))
  }

  function Sum(s: seq<nat>): nat {
    if |s| == 0 then 0 else Sum(s[..|s| - 1]) + s[|s| - 1]
  }

  /** Position of the first 1 in a row, or `|row|` when there is none. */
  function IndexOfOne(row: seq<nat>): (k: nat)
    ensures k <= |row|
    ensures k < |row| ==> row[k] == 1
    ensures forall j :: 0 <= j < k ==> row[j] != 1
  {
    if |row| == 0 then 0
    else if row[0] == 1 then 0
    else 1 + IndexOfOne(row[1..])
  }

  /** Reads each row back into the class it encodes. */
  function Decode(rows: seq<seq<nat>>): seq<int> {
    seq(|rows|, i requires 0 <= i < |rows| => IndexOfOne(rows[i]))
  }

  lemma {:induction false} RowSum(target: int, nClasses: nat)
    requires 0 <= target < nClasses
    ensures Sum(Row(target, nClasses)) == 1
  {
    var r := Row(target, nClasses);
    if target == nClasses - 1 {
      assert r[..nClasses - 1] == seq(nClasses - 1, j => 0 as nat);
      ZeroSum(nClasses - 1);
    } else {
      assert r[..nClasses - 1] == Row(target, nClasses - 1);
      RowSum(target, nClasses - 1);
    }
  }

  lemma {:induction false} ZeroSum(n: nat)
    ensures Sum(seq(n, j => 0 as nat)) == 0
  {
    if n > 0 {
      assert seq(n, j => 0 as nat)[..n - 1] == seq(n - 1, j => 0 as nat);
      ZeroSum(n - 1);
    }
  }

  /** Every row of a successful encoding holds exactly one 1, in the target's
      column, and sums to 1. */
  lemma RowsAreOneHot(targets: seq<int>, nClasses: int)
    requires ToOnehot(targets, nClasses).Ok?
    ensures forall i, j :: 0 <= i < |targets| && 0 <= j < nClasses ==>
      ToOnehot(targets, nClasses).value[i][j] == if j == targets[i] then 1 else 0
    ensures forall i :: 0 <= i < |targets| ==> Sum(ToOnehot(targets, nClasses).value[i]) == 1
  {
    forall i | 0 <= i < |targets|
      ensures Sum(ToOnehot(targets, nClasses).value[i]) == 1
    {
      RowSum(targets[i], nClasses);
    }
  }

  /** Decoding the one-hot rows recovers the targets. */
  lemma DecodeOnehot(targets: seq<int>, nClasses: int)
    requires nClasses >= 0 && TargetsInRange(targets, nClasses)
    ensures Decode(ToOnehot(targets, nClasses).value) == targets
  {
    var rows := ToOnehot(targets, nClasses).value;
    forall i | 0 <= i < |targets|
      ensures IndexOfOne(rows[i]) == targets[i]
    {
      var k := IndexOfOne(rows[i]);
      assert rows[i][targets[i]] == 1;
    }
  }
}

=== FILE: ranges.dfy ===
/** Python's built-in `range(start, stop, step)`, used by the accuracy helper
    to enumerate task windows and by the `::2` slice of the stride downsampler. */
module Ranges {

  /** The elements of `range(start, stop, step)` in order. Python raises
      `ValueError` for a zero step, so callers must rule it out. */
  function PyRange(start: int, stop: int, step: int): (r: seq<int>)
    requires step != 0
    ensures forall k :: 0 <= k < |r| ==> r[k] == start + k * step
    ensures step > 0 ==> forall k :: 0 <= k < |r| ==> r[k] < stop
    ensures step < 0 ==> forall k :: 0 <= k < |r| ==> r[k] > stop
    ensures step > 0 ==> start + |r| * step >= stop
    ensures step < 0 ==> start + |r| * step <= stop
    decreases if step > 0 then stop - start else start - stop
  {
    if (step > 0 && start < stop) || (step < 0 && start > stop) then
      var rest := PyRange(start + step, stop, step);
      ConsArithmetic(start, step, rest);
      [start] + rest
    else
      []
  }

  /** Prepending `start` to the progression that begins at `start + step`
      gives the progression that begins at `start`, one element longer. */
  lemma ConsArithmetic(start: int, step: int, rest: seq<int>)
    requires forall k :: 0 <= k < |rest| ==> rest[k] == start + step + k * step
    ensures forall k :: 0 <= k < |rest| + 1 ==> ([start] + rest)[k] == start + k * step
    ensures start + (|rest| + 1) * step == start + step + |rest| * step
  {
    forall k | 0 <= k < |rest| + 1
      ensures ([start] + rest)[k] == start + k * step
    {
      if k > 0 {
        assert ([start] + rest)[k] == rest[k - 1];
        assert (k - 1) * step + step == k * step;
      }
    }
  }

  /** Number of elements of `range(0, stop, 2)`: ceil(stop / 2) for a non-negative stop. */
  lemma {:induction false} EvenRangeLength(stop: nat)
    ensures |PyRange(0, stop, 2)| == (stop + 1) / 2
  {
    var r := PyRange(0, stop, 2);
    if |r| > 0 {
      assert r[|r| - 1] == 2 * (|r| - 1) < stop;
    }
    assert 2 * |r| >= stop;
  }
}

=== FILE: resnet.dfy ===
/** `CifarResNet`: construction from keyword arguments (rejecting unknown ones),
    the forward pass through stem, four stages and feature head, and
    `resnet_rebuffi`. */
module ResNet {
  import opened Wrappers
  import opened Shapes
  import opened FeatureMaps
  import opened Layers
  import opened Blocks
  import opened Architecture
  import opened Initialisation

  /** The keyword arguments of a call, by name. Values are integers: Python's
      `True` and `False` are the integers 1 and 0, and the flags are read by
      truthiness. */
  type Kwargs = map<string, int>

  /** The constructor's declared parameters; any other keyword lands in `**kwargs`. */
  const Parameters: set<string> := {"n", "channels", "preact", "zero_residual"}

  /** `ValueError("Unused kwargs: ...")`, naming the unexpected keywords. */
  datatype ConstructionError = UnusedKwargs(names: set<string>)

  function Arg(kwargs: Kwargs, name: string, default: int): int {
    if name in kwargs then kwargs[name] else default
  }

  /** The input channel count, default 3. */
  function Channels(kwargs: Kwargs): int {
    Arg(kwargs, "channels", 3)
  }

  /** `Block = ResidualBlock if not preact else PreActResidualBlock`. */
  function SelectedVariant(kwargs: Kwargs): Variant {
    if Arg(kwargs, "preact", 0) == 0 then PostActivation else PreActivation
  }

  function ZeroResidual(kwargs: Kwargs): bool {
    Arg(kwargs, "zero_residual", 1) != 0
  }

  /** The calls this model covers: a call with only known keywords must ask for
      a non-negative channel count, which PyTorch's own layer constructor
      otherwise refuses outside this code. A call with an unknown keyword is
      refused before any layer is built, whatever its channel count. */
  predicate Admissible(kwargs: Kwargs) {
    kwargs.Keys <= Parameters ==> Channels(kwargs) >= 0
  }

  /** `CifarResNet(n=5, channels=3, preact=False, zero_residual=True, **kwargs)`:
      refuses any keyword outside its parameters before building anything, then
      builds the network and initialises its parameters. Stages 1 to 3 receive
      `n`, `n - 1` and `n - 2` plain blocks, after the opening block of stages 2
      and 3. */
  function CifarResNet(kwargs: Kwargs): (r: Result<Network, ConstructionError>)
    requires Admissible(kwargs)
    ensures r.Err? <==> !(kwargs.Keys <= Parameters)
    ensures r.Err? ==> r.error == UnusedKwargs(kwargs.Keys - Parameters)
    ensures r.Ok? ==> WellWired(r.value, Channels(kwargs))
    ensures r.Ok? ==> var n := Arg(kwargs, "n", 5);
      && |r.value.stage1| == MaxZero(n)
      && |r.value.stage2| == 1 + MaxZero(n - 1)
      && |r.value.stage3| == 1 + MaxZero(n - 2)
  {
    var unused := kwargs.Keys - Parameters;
    if unused != {} then
      Err(UnusedKwargs(unused))
    else
      var variant := SelectedVariant(kwargs);
      var channels: nat := Channels(kwargs);
      var n := Arg(kwargs, "n", 5);
      InitialisedBuild(variant, channels, n, ZeroResidual(kwargs));
      Ok(Initialise(Build(variant, channels, n), ZeroResidual(kwargs)))
  }

  /** The built and initialised network is well wired and has the stage sizes
      `_make_layer` gives for `n`. */
  lemma InitialisedBuild(variant: Variant, channels: nat, n: int, zeroResidual: bool)
    ensures var r := Initialise(Build(variant, channels, n), zeroResidual);
      && WellWired(r, channels)
      && |r.stage1| == MaxZero(n)
      && |r.stage2| == 1 + MaxZero(n - 1)
      && |r.stage3| == 1 + MaxZero(n - 2)
  {
    var net := Build(variant, channels, n);
    BuildWellWired(variant, channels, n);
    InitialisePreservesWiring(net, channels, zeroResidual);
    StageSizes(variant, channels, n);
    InitialiseKeepsStageSizes(net, zeroResidual);
  }

  /** The constructed network uses the selected block variant throughout and
      every block carries the parameters the initialisation pass promises. */
  lemma ConstructedBlocks(kwargs: Kwargs)
    requires Admissible(kwargs) && CifarResNet(kwargs).Ok?
    ensures var net := CifarResNet(kwargs).value;
      && (forall k :: 0 <= k < |AllBlocks(net)| ==> AllBlocks(net)[k].variant == SelectedVariant(kwargs))
      && (forall k :: 0 <= k < |AllBlocks(net)| ==> BlockInitialised(AllBlocks(net)[k], ZeroResidual(kwargs)))
  {
    var variant := SelectedVariant(kwargs);
    var raw := Build(variant, Channels(kwargs), Arg(kwargs, "n", 5));
    BuildVariant(variant, Channels(kwargs), Arg(kwargs, "n", 5));
    InitialisedBlocks(raw, ZeroResidual(kwargs));
    InitialiseKeepsBlocks(raw, ZeroResidual(kwargs));
    var all := AllBlocks(CifarResNet(kwargs).value);
    forall k | 0 <= k < |all|
      ensures all[k].variant == variant
    {
      assert AllBlocks(raw)[k] in AllBlocks(raw);
    }
  }

  /** `resnet_rebuffi(n=5, **kwargs)`: `CifarResNet(n=n, **kwargs)`. */
  function ResnetRebuffi(kwargs: Kwargs): (r: Result<Network, ConstructionError>)
    requires Admissible(kwargs)
    ensures r == CifarResNet(kwargs)
  {
    var forwarded := kwargs["n" := Arg(kwargs, "n", 5)];
    ForwardedDefault(kwargs);
    CifarResNet(forwarded)
  }

  /** Passing `n` explicitly with the value it would default to changes no
      argument the constructor reads and no unknown keyword. */
  lemma ForwardedDefault(kwargs: Kwargs)
    requires Admissible(kwargs)
    ensures var forwarded := kwargs["n" := Arg(kwargs, "n", 5)];
      && Admissible(forwarded)
      && Channels(forwarded) == Channels(kwargs)
      && CifarResNet(forwarded) == CifarResNet(kwargs)
  {
    var forwarded := kwargs["n" := Arg(kwargs, "n", 5)];
    assert forwarded.Keys - Parameters == kwargs.Keys - Parameters;
    assert Channels(forwarded) == Channels(kwargs);
    assert SelectedVariant(forwarded) == SelectedVariant(kwargs);
    assert ZeroResidual(forwarded) == ZeroResidual(kwargs);
    assert Arg(forwarded, "n", 5) == Arg(kwargs, "n", 5);
  }

  // ---------------------------------------------------------------------------
  // Forward pass.

  /** The opaque numerics of every layer of a network. */
  datatype NetworkOps = NetworkOps(
    stemConv: LayerFn,
    stemNorm: LayerFn,
    stage1: seq<BlockOps>,
    stage2: seq<BlockOps>,
    stage3: seq<BlockOps>,
    stage4: BlockOps,
    pool: LayerFn)

  predicate Aligned(net: Network, ops: NetworkOps) {
    |ops.stage1| == |net.stage1| && |ops.stage2| == |net.stage2| && |ops.stage3| == |net.stage3|
  }

  /** `nn.Sequential` of blocks; an empty stage passes its input through. */
  function StageForward(blocks: seq<Block>, ops: seq<BlockOps>, x: FeatureMap): Option<FeatureMap>
    requires |ops| == |blocks|
  {
    if |blocks| == 0 then Some(x)
    else
      var y :- BlockForward(blocks[0], ops[0], x);
      StageForward(blocks[1..], ops[1..], y)
  }

  /** A batch of feature vectors: `rows` examples of `cols` values. */
  datatype Features = Features(rows: nat, cols: nat, at: (int, int) -> real)

  /** `end_features`: `AvgPool2d(8)`, which needs at least an 8x8 map, then
      `view(N, -1)`, which cannot infer the width of an empty batch. Column `k`
      reads channel-major, then row, then column of the pooled map. */
  function EndFeatures(pool: LayerFn, x: FeatureMap): (r: Option<Features>)
    ensures r.Some? <==> (x.shape.batch >= 1 && x.shape.height >= PoolKernel && x.shape.width >= PoolKernel)
    ensures r.Some? ==> r.value.rows == x.shape.batch
    ensures r.Some? ==> r.value.cols == x.shape.channels * PoolExtent(x.shape.height) * PoolExtent(x.shape.width)
  {
    if x.shape.height < PoolKernel || x.shape.width < PoolKernel then None
    else
      var ph, pw := PoolExtent(x.shape.height), PoolExtent(x.shape.width);
      var pooled := pool(x);
      if x.shape.batch == 0 then None
      else
        var plane := ph * pw;
        Some(Features(x.shape.batch, x.shape.channels * plane,
          (n, k) => pooled(n, k / plane, (k % plane) / pw, k % pw)))
  }

  /** What `forward` returns: `(raw_features, features)`, or with
      `attention_hook` also the four stage outputs. */
  datatype ForwardOutput =
    | Pair(raw: Features, features: Features)
    | WithStages(raw: Features, features: Features, stages: seq<FeatureMap>)

  /** Stem: convolution, normalisation, ReLU. */
  function Stem(net: Network, ops: NetworkOps, x: FeatureMap): Option<FeatureMap> {
    var y :- ConvForward(net.stemConv, ops.stemConv, x);
    var y :- NormForward(net.stemBn, ops.stemNorm, y);
    Some(Relu(y))
  }

  /** `CifarResNet.forward(x, attention_hook)`. The raw features pool the last
      stage's output; the features pool its out-of-place ReLU. */
  function Forward(net: Network, ops: NetworkOps, x: FeatureMap, attentionHook: bool): Option<ForwardOutput>
    requires Aligned(net, ops)
  {
    var x0 :- Stem(net, ops, x);
    var stages :- RunStages(Pipeline(net), PipelineOps(ops), x0);
    Head(ops.pool, stages, attentionHook)
  }

  /** The end of `forward`: both feature vectors from the last stage output,
      with the stage outputs added under the attention hook. */
  function Head(pool: LayerFn, stages: seq<FeatureMap>, attentionHook: bool): Option<ForwardOutput>
    requires |stages| == 4
  {
    var raw :- EndFeatures(pool, stages[3]);
    var features :- EndFeatures(pool, Relu(stages[3]));
    if attentionHook then Some(WithStages(raw, features, stages))
    else Some(Pair(raw, features))
  }

  /** `stage_1` to `stage_4` in order; the last stage is a single block. */
  function Pipeline(net: Network): seq<seq<Block>> {
    [net.stage1, net.stage2, net.stage3, [net.stage4]]
  }

  function PipelineOps(ops: NetworkOps): seq<seq<BlockOps>> {
    [ops.stage1, ops.stage2, ops.stage3, [ops.stage4]]
  }

  /** Every stage has one set of block numerics per block. */
  predicate OpsFit(stages: seq<seq<Block>>, ops: seq<seq<BlockOps>>) {
    |ops| == |stages| && forall k :: 0 <= k < |stages| ==> |ops[k]| == |stages[k]|
  }

  /** Runs the stages in sequence, each fed the previous one's output, and
      collects every stage's output. */
  function RunStages(stages: seq<seq<Block>>, ops: seq<seq<BlockOps>>, x: FeatureMap): (r: Option<seq<FeatureMap>>)
    requires OpsFit(stages, ops)
    ensures r.Some? ==> |r.value| == |stages|
    ensures r.Some? && |stages| > 0 ==> StageForward(stages[0], ops[0], x) == Some(r.value[0])
    decreases |stages|
  {
    if |stages| == 0 then Some([])
    else
      var y :- StageForward(stages[0], ops[0], x);
      var rest :- RunStages(stages[1..], ops[1..], y);
      Some([y] + rest)
  }

  // ---------------------------------------------------------------------------
  // Shapes through the network.

  /** The shape a chain of blocks produces, block after block. */
  function StageShapeOf(blocks: seq<Block>, s: Shape): Shape {
    if |blocks| == 0 then s else StageShapeOf(blocks[1..], OutShape(blocks[0], s))
  }

  lemma {:induction false} StageForwardShape(blocks: seq<Block>, ops: seq<BlockOps>, x: FeatureMap, inplanes: nat)
    requires |ops| == |blocks| && AllWellFormed(blocks) && Chained(blocks, inplanes)
    requires x.shape.channels == inplanes && x.shape.height >= 1 && x.shape.width >= 1
    ensures StageForward(blocks, ops, x).Some?
    ensures StageForward(blocks, ops, x).value.shape == StageShapeOf(blocks, x.shape)
  {
    if |blocks| > 0 {
      BlockShape(blocks[0], ops[0], x);
      var y := BlockForward(blocks[0], ops[0], x).value;
      assert AllWellFormed(blocks[1..]);
      assert Chained(blocks[1..], blocks[0].OutPlanes());
      StageForwardShape(blocks[1..], ops[1..], y, blocks[0].OutPlanes());
    }
  }

  lemma {:induction false} WiredStageShape(blocks: seq<Block>, inplanes: nat, outplanes: nat, increasing: bool, s: Shape)
    requires StageWired(blocks, inplanes, outplanes, increasing)
    requires s.channels == inplanes && s.height >= 1 && s.width >= 1
    ensures StageShapeOf(blocks, s) == if increasing
      then Shape(s.batch, outplanes, (s.height + 1) / 2, (s.width + 1) / 2)
      else Shape(s.batch, outplanes, s.height, s.width)
  {
    if |blocks| > 0 {
      var b := blocks[0];
      var tail := blocks[1..];
      assert WellFormed(b);
      assert StageOut(tail, b.OutPlanes()) == outplanes;
      assert Chained(tail, b.OutPlanes());
      assert AllWellFormed(tail);
      WiredStageShape(tail, b.OutPlanes(), outplanes, false, OutShape(b, s));
    }
  }

  /** The shape a well-wired stage produces from an input of its width. */
  function StageOutShape(s: Shape, outplanes: nat, increasing: bool): Shape {
    if increasing then Shape(s.batch, outplanes, (s.height + 1) / 2, (s.width + 1) / 2)
    else Shape(s.batch, outplanes, s.height, s.width)
  }

  /** A well-wired stage entered with its input width maps (N, C, h, w) to
      (N, out, h, w), or to (N, out, ceil(h/2), ceil(w/2)) when it opens with a
      dimension increase. */
  lemma WiredStageForward(blocks: seq<Block>, ops: seq<BlockOps>, x: FeatureMap, inplanes: nat, outplanes: nat, increasing: bool)
    requires |ops| == |blocks| && StageWired(blocks, inplanes, outplanes, increasing)
    requires x.shape.channels == inplanes && x.shape.height >= 1 && x.shape.width >= 1
    ensures StageForward(blocks, ops, x).Some?
    ensures StageForward(blocks, ops, x).value.shape == StageOutShape(x.shape, outplanes, increasing)
  {
    StageForwardShape(blocks, ops, x, inplanes);
    WiredStageShape(blocks, inplanes, outplanes, increasing, x.shape);
  }

  /** The shapes a sequence of well-wired stages produces, stage by stage. */
  function ShapesAfter(s: Shape, outplanes: seq<nat>, increasing: seq<bool>): (r: seq<Shape>)
    requires |outplanes| == |increasing|
    ensures |r| == |increasing|
    decreases |increasing|
  {
    if |increasing| == 0 then []
    else
      var t := StageOutShape(s, outplanes[0], increasing[0]);
      [t] + ShapesAfter(t, outplanes[1..], increasing[1..])
  }

  /** The shapes of a sequence of feature maps. */
  function ShapesOf(maps: seq<FeatureMap>): (r: seq<Shape>)
    ensures |r| == |maps|
    ensures forall k :: 0 <= k < |maps| ==> r[k] == maps[k].shape
  {
    seq(|maps|, k requires 0 <= k < |maps| => maps[k].shape)
  }

  /** Stage `k` is wired from `widths[k]` to `widths[k + 1]` channels, opening
      with a dimension increase when `increasing[k]`. */
  predicate WiredChain(stages: seq<seq<Block>>, widths: seq<nat>, increasing: seq<bool>)
    requires |widths| == |stages| + 1 && |increasing| == |stages|
    decreases |stages|
  {
    |stages| == 0
    || (StageWired(stages[0], widths[0], widths[1], increasing[0])
        && WiredChain(stages[1..], widths[1..], increasing[1..]))
  }

  lemma RunStagesCons(stages: seq<seq<Block>>, ops: seq<seq<BlockOps>>, x: FeatureMap)
    requires OpsFit(stages, ops) && |stages| > 0
    requires StageForward(stages[0], ops[0], x).Some?
    requires RunStages(stages[1..], ops[1..], StageForward(stages[0], ops[0], x).value).Some?
    ensures RunStages(stages, ops, x).Some?
    ensures ShapesOf(RunStages(stages, ops, x).value)
      == [StageForward(stages[0], ops[0], x).value.shape]
         + ShapesOf(RunStages(stages[1..], ops[1..], StageForward(stages[0], ops[0], x).value).value)
  {
  }

  /** Stages wired width to width all succeed on an input of the first width
      and produce `ShapesAfter`. */
  lemma {:induction false} RunStagesShape(stages: seq<seq<Block>>, ops: seq<seq<BlockOps>>, x: FeatureMap,
                                          widths: seq<nat>, increasing: seq<bool>)
    requires OpsFit(stages, ops) && |widths| == |stages| + 1 && |increasing| == |stages|
    requires WiredChain(stages, widths, increasing)
    requires x.shape.channels == widths[0] && x.shape.height >= 1 && x.shape.width >= 1
    ensures RunStages(stages, ops, x).Some?
    ensures ShapesOf(RunStages(stages, ops, x).value) == ShapesAfter(x.shape, widths[1..], increasing)
  {
    if |stages| > 0 {
      WiredStageForward(stages[0], ops[0], x, widths[0], widths[1], increasing[0]);
      var y := StageForward(stages[0], ops[0], x).value;
      assert OpsFit(stages[1..], ops[1..]);
      RunStagesShape(stages[1..], ops[1..], y, widths[1..], increasing[1..]);
      RunStagesCons(stages, ops, x);
      assert widths[1..][1..] == widths[2..];
    }
  }

  /** Spatial extent after the two dimension increases: `ceil(ceil(h/2)/2)`. */
  function Quarter(size: nat): nat {
    ((size + 1) / 2 + 1) / 2
  }

  /** The four stage outputs of an input of shape (N, C, H, W), C being the
      network's input channels: (N,16,H,W), (N,32,ceil(H/2),ceil(W/2)), and twice
      (N,64,ceil(H/4),ceil(W/4)). */
  function StageShapes(s: Shape): seq<Shape> {
    [Shape(s.batch, 16, s.height, s.width),
     Shape(s.batch, 32, (s.height + 1) / 2, (s.width + 1) / 2),
     Shape(s.batch, 64, Quarter(s.height), Quarter(s.width)),
     Shape(s.batch, 64, Quarter(s.height), Quarter(s.width))]
  }

  /** The stage shapes do not depend on the input's channel count. */
  lemma StageShapesIgnoreChannels(a: Shape, b: Shape)
    requires a.batch == b.batch && a.height == b.height && a.width == b.width
    ensures StageShapes(a) == StageShapes(b)
  {
  }

  lemma StemShape(net: Network, ops: NetworkOps, x: FeatureMap, channels: nat)
    requires StemWired(net, channels)
    ensures Stem(net, ops, x).Some? <==> (x.shape.channels == channels && x.shape.height >= 1 && x.shape.width >= 1)
    ensures Stem(net, ops, x).Some? ==> Stem(net, ops, x).value.shape == StageShapes(x.shape)[0]
  {
    if x.shape.channels == channels && x.shape.height >= 1 && x.shape.width >= 1 {
      StrideOnePreserves(x.shape.height);
      StrideOnePreserves(x.shape.width);
    }
  }

  lemma FourStageShapes(s: Shape)
    requires s.channels == StemWidth
    ensures ShapesAfter(s, [16, 32, 64, 64], [false, true, true, false]) == StageShapes(s)
  {
    var s1 := StageOutShape(s, 16, false);
    var s2 := StageOutShape(s1, 32, true);
    var s3 := StageOutShape(s2, 64, true);
    var s4 := StageOutShape(s3, 64, false);
    assert ShapesAfter(s3, [64], [false]) == [s4];
    assert ShapesAfter(s2, [64, 64], [true, false]) == [s3, s4];
    assert ShapesAfter(s1, [32, 64, 64], [true, true, false]) == [s2, s3, s4];
  }

  /** The stages of a well-wired network accept every output of its stem and
      produce the four stage shapes. */
  lemma StagesShape(net: Network, ops: NetworkOps, x0: FeatureMap)
    requires StagesWired(net) && Aligned(net, ops)
    requires x0.shape.channels == StemWidth && x0.shape.height >= 1 && x0.shape.width >= 1
    ensures OpsFit(Pipeline(net), PipelineOps(ops))
    ensures RunStages(Pipeline(net), PipelineOps(ops), x0).Some?
    ensures ShapesOf(RunStages(Pipeline(net), PipelineOps(ops), x0).value) == StageShapes(x0.shape)
  {
    var widths: seq<nat> := [16, 16, 32, 64, 64];
    var increasing := [false, true, true, false];
    var stages := Pipeline(net);
    assert WiredChain(stages[4..], widths[4..], increasing[4..]);
    assert WiredChain(stages[3..], widths[3..], increasing[3..]) by {
      assert stages[3..][1..] == stages[4..];
    }
    assert WiredChain(stages[2..], widths[2..], increasing[2..]) by {
      assert stages[2..][1..] == stages[3..];
    }
    assert WiredChain(stages[1..], widths[1..], increasing[1..]) by {
      assert stages[1..][1..] == stages[2..];
    }
    assert WiredChain(stages, widths, increasing);
    RunStagesShape(stages, PipelineOps(ops), x0, widths, increasing);
    assert widths[1..] == [16, 32, 64, 64];
    FourStageShapes(x0.shape);
  }

  /** A well-wired network's forward pass succeeds exactly when the input has
      the network's channel count, a non-empty batch, and spatial extents that
      are still at least 8 after the two halvings. */
  lemma ForwardSucceeds(net: Network, ops: NetworkOps, x: FeatureMap, attentionHook: bool, channels: nat)
    requires WellWired(net, channels) && Aligned(net, ops)
    ensures Forward(net, ops, x, attentionHook).Some?
      <==> (x.shape.channels == channels && x.shape.batch >= 1
            && Quarter(x.shape.height) >= PoolKernel && Quarter(x.shape.width) >= PoolKernel)
  {
    StemShape(net, ops, x, channels);
    if Stem(net, ops, x).Some? {
      var stages := ForwardAfterStem(net, ops, x, attentionHook);
      HeadShape(ops.pool, stages, attentionHook, x.shape);
    }
  }

  /** What `forward` returns for an accepted input of shape `s`: each example's
      feature vectors have `64 * floor(ceil(H/4)/8) * floor(ceil(W/4)/8)`
      entries, and with the attention hook the four stage outputs come along
      with the stage shapes. */
  predicate OutputFits(out: ForwardOutput, s: Shape, attentionHook: bool)
    requires Quarter(s.height) >= PoolKernel && Quarter(s.width) >= PoolKernel
  {
    var cols := OutDim * PoolExtent(Quarter(s.height)) * PoolExtent(Quarter(s.width));
    && out.raw.rows == s.batch && out.raw.cols == cols
    && out.features.rows == s.batch && out.features.cols == cols
    && (out.WithStages? <==> attentionHook)
    && (out.WithStages? ==> ShapesOf(out.stages) == StageShapes(s))
  }

  lemma ForwardOutputShapes(net: Network, ops: NetworkOps, x: FeatureMap, attentionHook: bool, channels: nat)
    requires WellWired(net, channels) && Aligned(net, ops)
    requires x.shape.channels == channels && x.shape.batch >= 1
    requires Quarter(x.shape.height) >= PoolKernel && Quarter(x.shape.width) >= PoolKernel
    ensures Forward(net, ops, x, attentionHook).Some?
    ensures OutputFits(Forward(net, ops, x, attentionHook).value, x.shape, attentionHook)
  {
    StemShape(net, ops, x, channels);
    var stages := ForwardAfterStem(net, ops, x, attentionHook);
    HeadShape(ops.pool, stages, attentionHook, x.shape);
  }

  lemma ForwardAfterStem(net: Network, ops: NetworkOps, x: FeatureMap, attentionHook: bool) returns (stages: seq<FeatureMap>)
    requires StagesWired(net) && Aligned(net, ops)
    requires Stem(net, ops, x).Some? && Stem(net, ops, x).value.shape == StageShapes(x.shape)[0]
    ensures ShapesOf(stages) == StageShapes(x.shape)
    ensures Forward(net, ops, x, attentionHook) == Head(ops.pool, stages, attentionHook)
  {
    var x0 := Stem(net, ops, x).value;
    StagesShape(net, ops, x0);
    StageShapesIgnoreChannels(x0.shape, x.shape);
    ForwardIsHead(net, ops, x, attentionHook);
    stages := RunStages(Pipeline(net), PipelineOps(ops), x0).value;
  }

  lemma ForwardIsHead(net: Network, ops: NetworkOps, x: FeatureMap, attentionHook: bool)
    requires Aligned(net, ops) && Stem(net, ops, x).Some?
    requires RunStages(Pipeline(net), PipelineOps(ops), Stem(net, ops, x).value).Some?
    ensures Forward(net, ops, x, attentionHook)
      == Head(ops.pool, RunStages(Pipeline(net), PipelineOps(ops), Stem(net, ops, x).value).value, attentionHook)
  {
  }

  lemma HeadShape(pool: LayerFn, stages: seq<FeatureMap>, attentionHook: bool, s: Shape)
    requires ShapesOf(stages) == StageShapes(s)
    ensures Head(pool, stages, attentionHook).Some?
      <==> (s.batch >= 1 && Quarter(s.height) >= PoolKernel && Quarter(s.width) >= PoolKernel)
    ensures Head(pool, stages, attentionHook).Some? ==> OutputFits(Head(pool, stages, attentionHook).value, s, attentionHook)
  {
    assert stages[3].shape == StageShapes(s)[3];
  }

  /** On a 32x32 input the last stage is 8x8, `AvgPool2d(8)` leaves 1x1, and
      each feature vector has `out_dim` = 64 entries. */
  lemma ThirtyTwoByThirtyTwo(net: Network, ops: NetworkOps, x: FeatureMap, attentionHook: bool, channels: nat)
    requires WellWired(net, channels) && Aligned(net, ops)
    requires x.shape.channels == channels && x.shape.batch >= 1
    requires x.shape.height == 32 && x.shape.width == 32
    ensures Forward(net, ops, x, attentionHook).Some?
    ensures Forward(net, ops, x, attentionHook).value.raw.cols == net.outDim == 64
    ensures Forward(net, ops, x, attentionHook).value.features.cols == net.outDim
    ensures attentionHook ==>
      var out := Forward(net, ops, x, attentionHook).value;
      out.WithStages? && |out.stages| == 4 && out.stages[3].shape == Shape(x.shape.batch, 64, 8, 8)
  {
    assert Quarter(32) == 8;
    ForwardOutputShapes(net, ops, x, attentionHook, channels);
    var out := Forward(net, ops, x, attentionHook).value;
    assert PoolExtent(8) == 1;
    if attentionHook {
      assert ShapesOf(out.stages)[3] == out.stages[3].shape;
    }
  }

  /** Each collected stage output is what its stage computes from the previous
      one. */
  lemma {:induction false} RunStagesChain(stages: seq<seq<Block>>, ops: seq<seq<BlockOps>>, x: FeatureMap)
    requires OpsFit(stages, ops) && RunStages(stages, ops, x).Some?
    ensures forall k :: 0 <= k < |stages| - 1 ==>
      StageForward(stages[k + 1], ops[k + 1], RunStages(stages, ops, x).value[k])
        == Some(RunStages(stages, ops, x).value[k + 1])
  {
    if |stages| > 0 {
      var r := RunStages(stages, ops, x).value;
      var y := StageForward(stages[0], ops[0], x).value;
      assert OpsFit(stages[1..], ops[1..]);
      RunStagesChain(stages[1..], ops[1..], y);
      assert r == [y] + RunStages(stages[1..], ops[1..], y).value;
      forall k | 0 <= k < |stages| - 1
        ensures StageForward(stages[k + 1], ops[k + 1], r[k]) == Some(r[k + 1])
      {
        if k > 0 {
          assert stages[k + 1] == stages[1..][k] && ops[k + 1] == ops[1..][k];
        }
      }
    }
  }

  /** `stage_4` is one block: as a one-element stage it is just that block. */
  lemma SingleBlockStage(b: Block, ops: BlockOps, x: FeatureMap)
    ensures StageForward([b], [ops], x) == BlockForward(b, ops, x)
  {
    assert [b][1..] == [];
  }

  /** The stage outputs returned with the attention hook are, in order, the
      outputs of stages 1 to 4, each feeding the next; the raw features pool
      the last one and the features pool its ReLU; without the hook the same
      pair is returned alone. */
  lemma ForwardDataflow(net: Network, ops: NetworkOps, x: FeatureMap)
    requires Aligned(net, ops)
    requires Forward(net, ops, x, true).Some?
    ensures var out := Forward(net, ops, x, true).value;
      && out.WithStages? && |out.stages| == 4
      && Stem(net, ops, x).Some?
      && StageForward(net.stage1, ops.stage1, Stem(net, ops, x).value) == Some(out.stages[0])
      && StageForward(net.stage2, ops.stage2, out.stages[0]) == Some(out.stages[1])
      && StageForward(net.stage3, ops.stage3, out.stages[1]) == Some(out.stages[2])
      && BlockForward(net.stage4, ops.stage4, out.stages[2]) == Some(out.stages[3])
      && EndFeatures(ops.pool, out.stages[3]) == Some(out.raw)
      && EndFeatures(ops.pool, Relu(out.stages[3])) == Some(out.features)
      && Forward(net, ops, x, false) == Some(Pair(out.raw, out.features))
  {
    var x0 := Stem(net, ops, x).value;
    var stages := Pipeline(net);
    var sops := PipelineOps(ops);
    RunStagesChain(stages, sops, x0);
    var r := RunStages(stages, sops, x0).value;
    assert StageForward(stages[1], sops[1], r[0]) == Some(r[1]);
    assert StageForward(stages[2], sops[2], r[1]) == Some(r[2]);
    assert StageForward(stages[3], sops[3], r[2]) == Some(r[3]);
    SingleBlockStage(net.stage4, ops.stage4, r[2]);
  }

  // ---------------------------------------------------------------------------
  // Zero-residual initialisation.

  /** In a network built with post-activation blocks and `zero_residual`, every
      block initially computes its shortcut: the identity, or for a
      dimension-increasing block the stride slice padded with zero channels. */
  lemma ZeroResidualNetwork(kwargs: Kwargs, ops: BlockOps, x: FeatureMap, k: nat)
    requires Admissible(kwargs) && CifarResNet(kwargs).Ok?
    requires SelectedVariant(kwargs) == PostActivation && ZeroResidual(kwargs)
    requires k < |AllBlocks(CifarResNet(kwargs).value)|
    requires Accepts(AllBlocks(CifarResNet(kwargs).value)[k], x.shape)
    ensures var b := AllBlocks(CifarResNet(kwargs).value)[k];
      && BlockForward(b, ops, x).Some?
      && BlockForward(b, ops, x).value.shape == Shortcut(b, x).shape
      && forall n, c, i, j :: BlockForward(b, ops, x).value.at(n, c, i, j) == Shortcut(b, x).at(n, c, i, j)
  {
    var net := CifarResNet(kwargs).value;
    var b := AllBlocks(net)[k];
    WiredBlocks(net, Channels(kwargs));
    ConstructedBlocks(kwargs);
    assert b in AllBlocks(net);
    ZeroResidualIsShortcut(b, ops, x);
  }
}

=== FILE: shapes.dfy ===
/** Shape arithmetic of the feature maps flowing through the residual network:
    4-dimensional tensors (batch, channels, height, width). */
module Shapes {
  import opened Ranges

  /** Every convolution of the network has a 3x3 kernel and padding 1. */
  const Kernel: nat := 3
  const Padding: nat := 1
  /** The feature head's `nn.AvgPool2d(8)`: kernel and stride 8, no padding. */
  const PoolKernel: nat := 8

  datatype Shape = Shape(batch: nat, channels: nat, height: nat, width: nat)

  /** Extent along one spatial axis after a 3x3, padding-1 convolution with the
      given stride, `(size + 2 * padding - kernel) / stride + 1`; the padded
      input must cover the kernel. The result is `ceil(size / stride)`. */
  function ConvExtent(size: nat, stride: int): (r: nat)
    requires size + 2 * Padding >= Kernel && stride >= 1
    ensures (r - 1) * stride < size <= r * stride
  {
    var q := (size + 2 * Padding - Kernel) / stride;
    assert size - 1 == q * stride + (size - 1) % stride;
    q + 1
  }

  /** Extent along one axis of the slice `::2`, which keeps the indices
      `range(0, size, 2)`: `ceil(size / 2)`, so an odd last row is kept. */
  function SliceExtent(size: nat): (r: nat)
    ensures r == (size + 1) / 2
  {
    EvenRangeLength(size);
    |PyRange(0, size, 2)|
  }

  /** Extent along one axis after `AvgPool2d(8)`; the input must be at least
      one window wide. The result is `floor(size / 8)`. */
  function PoolExtent(size: nat): (r: nat)
    requires size >= PoolKernel
    ensures r >= 1 && r * PoolKernel <= size < (r + 1) * PoolKernel
  {
    (size - PoolKernel) / PoolKernel + 1
  }

  /** A stride-2 convolution and the `::2` slice agree on every non-empty axis:
      both keep `ceil(size / 2)` positions. */
  lemma StrideTwoMatchesSlice(size: nat)
    requires size >= 1
    ensures ConvExtent(size, 2) == SliceExtent(size)
  {
    var r := ConvExtent(size, 2);
    assert 2 * r - 2 < size <= 2 * r;
  }

  /** A stride-1 convolution preserves the extent. */
  lemma StrideOnePreserves(size: nat)
    requires size >= 1
    ensures ConvExtent(size, 1) == size
  {
    var r := ConvExtent(size, 1);
    assert r - 1 < size <= r;
  }
}

=== FILE: wrappers.dfy ===
/** Failure-compatible Option and Result datatypes used throughout the model
    for the error paths of the library (exceptions, NaN results). */
module Wrappers {

  datatype Option<+T> = None | Some(value: T) {

    predicate IsFailure() {
      None?
    }

    function PropagateFailure<U>(): Option<U>
      requires None?
    {
      None
    }

    function Extract(): T
      requires Some?
    {
      value
    }
  }

  datatype Result<+T, +E> = Ok(value: T) | Err(error: E) {

    predicate IsFailure() {
      Err?
    }

    function PropagateFailure<U>(): Result<U, E>
      requires Err?
    {
      Err(error)
    }

    function Extract(): T
      requires Ok?
    {
      value
    }
  }
}
